=== FILE: README.md ===
# LightToInformation: fixed-point MNIST classifier

LightToInformation trains a small two-layer dense network on MNIST
digits, converts it into 8-bit fixed point and runs it on an Arduino. This
project models the integer core of that pipeline and proves properties of it:

- **Pooling**: 2x2 max pooling with stride 2 shrinks each 28x28 uint8 picture
  to 14x14, which gives a network input of 196 pixels.
- **Quantizer**: each of the four float tensors gets its own number of
  fractional bits, `7 - ceil(log2(max|x|))`. Each element becomes
  `round(x * 2^bits)` (round half to even) stored as int8.
- **Header export**: the C header holds the four int8 arrays, with the weight
  matrices transposed to output x input, then the five bit-count defines and
  the three layer sizes.
- **Inference engine**: the layer-1 product is computed in int32 and
  realigned by the arithmetic right shift `img_bits + l1w_bits - l1b_bits`.
  Then the bias is added and ReLU applied. Layer 2 does the same with shift
  `l1b_bits + l2w_bits - l2b_bits`. The prediction is the first index of
  the largest layer-2 output (the "hard-max").

Modules and files:

| module | file | content |
|---|---|---|
| `Results` | `results.dfy` | `Result` and `Option` for the error paths |
| `FixedPoint` | `fixed_point.dfy` | int32 and int8 two's-complement wrap, numpy's `right_shift` |
| `Matrices` | `matrices.dfy` | rectangular arrays, row-major flattening, transpose |
| `Pooling` | `pooling.dfy` | 2x2 max pooling of one picture and of a dataset |
| `HardMax` | `hardmax.dfy` | `argmax`, and hard-max versus softmax-then-argmax |
| `Network` | `network.dfy` | the quantized network and its derived sizes and shifts |
| `Inference` | `inference.dfy` | the fixed-point forward pass: functional, and as loops with a wrapping accumulator |
| `Quantizer` | `quantizer.dfy` | bit-count choice, rounding, int8 conversion, error bounds |
| `Export` | `export.dfy` | the header's contents and reading them back |

Numbers are modelled exactly:

- Integers are unbounded `int`s. numpy's int32 and int8 wrap-around is
  written out (`Wrap32`, `CastInt8`).
- Float tensors are `real`s.
- numpy's integer semantics are those of numpy 1.x from release 1.17 on (see "## Left out").
- `x * 2^k` for any integer `k` is `Quantizer.Scale`, defined by repeated
  doubling or halving.

## Model

| member | source | states |
|---|---|---|
| FixedPoint.Wrap32 | 05_compare_models.py:57-66 | the int32 result lies in int32, differs from the exact result by a multiple of 2^32, and equals it whenever the exact result fits |
| FixedPoint.CastInt8 | 04_quantize_model.py:58-61 | the int8 cast lies in [-128, 127], is congruent to its operand modulo 256, and leaves int8 values unchanged |
| FixedPoint.Wrap32AddWrap32 | 05_compare_models.py:62-66 | wrapping the accumulator after every addition gives the same int32 value as wrapping only the final sum |
| FixedPoint.ShiftRight | 05_compare_models.py:64 | the shift keeps the sign; for a non-negative count s it is floor division by 2^s; for a negative count it is -1 or 0 |
| FixedPoint.ShiftRightIsRepeatedHalving | 05_compare_models.py:64 | a right shift by s equals s successive floor halvings |
| FixedPoint.ShiftBiasMonotone | 05_compare_models.py:64-66 | shifting and then adding a bias is monotone in the accumulator |
| FixedPoint.ShiftRightShrinks | 05_compare_models.py:64 | the shift never increases the magnitude and never changes the sign |
| Matrices.Flatten | 04_quantize_model.py:42-45 | the flattened tensor holds exactly the elements of the rows, which is what numpy's `min` and `max` range over |
| Matrices.FlattenLength | 05_compare_models.py:46 | reshaping a rows x cols array to a vector gives rows*cols elements |
| Matrices.FlattenAt | 05_compare_models.py:46 | row-major reshape: element (i, j) of a rows x cols array lands at position i*cols + j |
| Matrices.TransposeTwice | 04_quantize_model.py:74-75 | transposing the transpose gives back the array |
| Pooling.SeqMax | mnist_on_arduino/01_mnist_preprocessing.py:46 | the result bounds every element of the window and is attained by one of them |
| Pooling.MaxPool | mnist_on_arduino/01_mnist_preprocessing.py:43-46 | the result is 14x14 and pixel (i, j) is the maximum of input rows 2i..2i+1 and columns 2j..2j+1 |
| Pooling.PoolDataset | mnist_on_arduino/01_mnist_preprocessing.py:40-51 | one pooled picture per input picture, in order, each the pooling of its input |
| Pooling.PoolKeepsUInt8 | mnist_on_arduino/01_mnist_preprocessing.py:40-46 | pooling a uint8 picture yields values in [0, 255], so storing them in the uint8 array loses nothing |
| Pooling.PoolingUnique | mnist_on_arduino/01_mnist_preprocessing.py:46 | the pooled picture is determined by the input picture |
| Pooling.PoolMonotone | mnist_on_arduino/01_mnist_preprocessing.py:46 | brightening input pixels never darkens any pooled pixel |
| HardMax.Argmax | 05_compare_models.py:83 | the result is the first index of a largest score |
| HardMax.FirstMaxUnique | 05_compare_models.py:83 | only one index is the first largest one |
| HardMax.HardMaxLoop | 05_compare_models.py:82-83 | a single pass that keeps the first strict maximum returns the argmax |
| HardMax.ArgmaxUnderIncreasingMap | 05_compare_models.py:77-83 | applying any strictly increasing map to the scores leaves the first largest index unchanged (both directions) |
| HardMax.Softmax | 05_compare_models.py:77-79 | softmax gives one positive value g(s_j) / sum of g per score |
| HardMax.SoftmaxSumsToOne | 05_compare_models.py:77-79 | on a non-empty score vector the softmax values add up to 1, so each is a probability in (0, 1] |
| HardMax.SoftmaxArgmax | 05_compare_models.py:77-83 | argmax of softmax with any positive increasing exponential equals the hard-max, in both directions |
| Inference.Dense | 05_compare_models.py:61-66 | one int32 output per bias entry (its value is stated by DenseLoop and the closed-form lemmas) |
| Inference.Layer1 | 05_compare_models.py:57-68 | one activation per hidden neuron, each non-negative after the ReLU and within int32 |
| Inference.Layer2 | 05_compare_models.py:70-75 | one output per class (its value is stated by Layer2ClosedForm) |
| Inference.Infer | 05_compare_models.py:36-83 | the dimension error exactly when the tensors or the image do not fit together; the empty-output error exactly when there are no classes; otherwise a class index below l2_size that is the first maximum of the layer-2 outputs |
| Inference.DenseLoop | 05_compare_models.py:61-68 | a loop with an int32 accumulator that wraps after every multiply-add gives exactly the functional layer |
| Inference.Classify | 05_compare_models.py:57-83 | the loop implementation agrees with Infer on every input, error cases included |
| Inference.ColumnDotBound | 05_compare_models.py:57-62 | a dot product of n weights bounded by w and inputs bounded by p is bounded by n*w*p |
| Inference.ColumnDotZero | 05_compare_models.py:62 | a zero input vector gives a zero product |
| Inference.Layer1ClosedForm | 05_compare_models.py:61-68 | for int8 weights and uint8 pixels with no possible wrap, each activation is ReLU(shifted exact sum + bias) and the exact sum fits in int32 |
| Inference.Layer2ClosedForm | 05_compare_models.py:70-75 | when neither layer can wrap, each output is the shifted exact sum plus bias |
| Inference.ZeroImage | 05_compare_models.py:61-83 | a black image gives layer1 = max(bias1, 0); if every layer-1 bias is at most 0 the outputs are bias2 and the prediction is argmax(bias2) |
| Inference.ClassifyPicture | 05_compare_models.py:45-83 | a 28x28 picture, pooled and flattened, always gets a class below l2_size from a well-shaped 196-input network |
| Inference.PooledPictureFitsLayer1 | 05_compare_models.py:57-68 | a pooled, flattened uint8 picture is a valid 196-pixel input for which layer 1 cannot wrap, so the closed form holds |
| Quantizer.TensorMax | 04_quantize_model.py:42-45 | the maximum bounds every element and is attained |
| Quantizer.TensorMin | 04_quantize_model.py:42-45 | the minimum bounds every element from below and is attained |
| Quantizer.MaxAbs | 04_quantize_model.py:47-50 | max(abs(min), abs(max)) is the largest magnitude in the tensor and is attained |
| Quantizer.CeilLog2 | 04_quantize_model.py:47-50 | c = ceil(log2 m) satisfies 2^(c-1) < m <= 2^c |
| Quantizer.CeilLog2Unique | 04_quantize_model.py:47-50 | that bracket determines c |
| Quantizer.FracBitsScales | 04_quantize_model.py:47-50 | 7 - ceil(log2 m) bits scale m into (64, 128] |
| Quantizer.FracBitsLargest | 04_quantize_model.py:47-50 | m * 2^k <= 128 holds exactly for k up to the chosen bit count |
| Quantizer.FracBitsUnique | 04_quantize_model.py:47-50 | exactly one bit count scales m into (64, 128] |
| Quantizer.FitsIffMaxFits | 04_quantize_model.py:47-50 | every element fits a bit count exactly when the largest magnitude does |
| Quantizer.TensorBitsFit | 04_quantize_model.py:47-50 | the tensor's bit count keeps every scaled element within 128, and one more bit would push an element above 128 |
| Quantizer.TensorBitsLargest | 04_quantize_model.py:47-50 | a bit count keeps the whole tensor within 128 exactly when it is at most the chosen count |
| Quantizer.RoundHalfEven | 04_quantize_model.py:58-61 | numpy's `round` is within 0.5 of its argument and picks the even integer on a tie |
| Quantizer.RoundHalfEvenUnique | 04_quantize_model.py:58-61 | those two properties determine the rounded value |
| Quantizer.Quantize | 04_quantize_model.py:58-61 | corrected quantizer: an int8 with the sign of x, which reads back within 2^-bits of x whenever x fits the bit count |
| Quantizer.ScaleError | 04_quantize_model.py:58-61 | an integer within e of x*2^bits reads back within e*2^-bits of x |
| Quantizer.WrapOnlyAt128 | 04_quantize_model.py:58-61 | within the chosen range the rounded value lies in [-128, 128]; the int8 cast changes it exactly when it is 128, which turns into -128 and needs x*2^bits >= 127.5 |
| Quantizer.DequantizeError | 04_quantize_model.py:58-61 | when the rounded value is an int8, the stored value reads back within half a step, 2^-bits / 2 |
| Quantizer.QuantizeMatchesAsWritten | 04_quantize_model.py:58-61 | the corrected quantizer agrees with the written one wherever the written one does not wrap |
| Quantizer.PowerOfTwoMaximumWraps | 04_quantize_model.py:47-61 | a largest magnitude equal to a power of two 2^e gets 7-e bits, and a positive element of that magnitude rounds to 128: stored as -128 as written, as 127 corrected |
| Quantizer.BiasOneWraps | 04_quantize_model.py:47-61 | the bias [1.0, -0.5] gets 7 bits and is stored as [-128, -64] as written, and as [127, -64] corrected |
| Quantizer.QuantizeVectorFaithful | 04_quantize_model.py:58-61 | corrected quantizer: a vector whose elements fit the bit count becomes int8 entries, each with the right sign and within 2^-bits of its element |
| Quantizer.QuantizeMatrixFaithful | 04_quantize_model.py:58-60 | corrected quantizer: the same for a matrix, element by element, keeping its shape |
| Quantizer.QuantizeVectorAgrees | 04_quantize_model.py:58-61 | for a vector that fits the bit count, the corrected and the as-written quantizer store the same values exactly when no element rounds to 128 |
| Quantizer.QuantizeMatrixAgrees | 04_quantize_model.py:58-60 | the same for a matrix, with the condition taken over all its elements |
| Quantizer.CheckTensors | 04_quantize_model.py:42-50 | no error exactly when every tensor is non-empty and has a nonzero element; an empty-tensor error exactly when some tensor is empty |
| Quantizer.QuantizeModel | 04_quantize_model.py:42-66 | corrected quantizer: success exactly when every tensor is non-empty and not all zero; on success every tensor gets the largest bit count that fits it and is quantized faithfully with it |
| Quantizer.QuantizeModelAgrees | 04_quantize_model.py:42-61 | the program's quantizer (QuantizeModelAsWritten, wrapping int8 conversion) and the corrected one fail on the same networks with the same error, choose the same bit counts, and store the same network exactly when no element of any tensor rounds to 128 |
| Quantizer.NetworkWithBiasOneWraps | 04_quantize_model.py:47-61 | for a well-shaped network with layer-1 bias [1.0, -0.5] and 0.75 elsewhere, the program stores that bias as [-128, -64] and the corrected quantizer as [127, -64], with every other tensor identical |
| Quantizer.QuantizedModelIsInt8 | 04_quantize_model.py:58-66 | corrected quantizer: whenever quantizing a well-shaped float network succeeds, it yields a well-shaped int8 network with the same sizes |
| Quantizer.QuantizedModelAsWrittenIsInt8 | 04_quantize_model.py:58-66 | the program's wrapping quantizer: whenever it succeeds on a well-shaped float network, the network it saves is well shaped, int8 and of the trained sizes |
| Export.ExportHeader | 04_quantize_model.py:72-102 | the header's weight arrays are the transposes (entry [o][i] is weight (i, o)), the biases and bit counts are carried over, img_bits is 8, and the sizes come from the tensors |
| Export.ExportLayoutConsistent | 04_quantize_model.py:74-92 | every declared extent matches its array exactly when the network's tensors fit together |
| Export.ReadHeader | 04_quantize_model.py:74-92 | reading a consistent header gives a network whose tensors fit together, with the declared sizes |
| Export.ExportRoundTrip | 04_quantize_model.py:74-98 | reading back the exported header gives the network it was written from |
| Export.TransposedRowDot | 04_quantize_model.py:74-75 | row o of the transposed weights dotted with an input equals column o of the original weights dotted with it, so the device layout computes the engine's products |
| Export.ExportedConstants | 04_quantize_model.py:94-102 | whenever quantization succeeds, with the corrected quantizer and with the program's wrapping one alike, the header declares 8 image bits, for each tensor the largest bit count that fits it, and the trained layer sizes |

## Left out

- HDF5 loading and saving of the tensors and of the MNIST data (04_quantize_model.py:108-116 and the file reads in the other scripts) are file I/O. The network is a parameter.
- The text of the header is left out: the `savetxt` formatting, the `%4d` padding and the `seek` back over trailing separators. Only which values go into which declaration is modelled.
- Evaluating the TensorFlow model and comparing accuracies is floating-point work on the training framework.
- The MNIST download, the training script, and the serial-port and camera scripts (07, 08) are I/O and training, outside the integer core.
- Floating-point `log2`, `ceil` and products by `2 ** bits` are left out. The quantizer works on exact reals, so float rounding of these is not modelled.
- Batching is left out: the engine is modelled one image at a time. Pooling is modelled for a whole dataset.
- Determinism of inference is not a separate lemma: every operation is a pure function.
- The commented-out floating softmax is modelled on exact reals with an arbitrary positive increasing function in place of `exp`.
- A numpy tensor with zero rows but a nonzero column count cannot be represented by nested sequences. Both the shape check and `Export.Cols` treat such a tensor as having no columns.
- Export.ExportHeader: requires rectangular weight arrays. numpy arrays always are, and nested sequences need not be.
- Quantizer.QuantizeModel: models the corrected, saturating int8 conversion, not the program's wrapping one. The program's quantizer is `Quantizer.QuantizeModelAsWritten`, and `Quantizer.QuantizeModelAgrees` states exactly when the two coincide.
- Quantizer.QuantizeVectorFaithful: the sign and one-step error bound are proved for the saturating quantizer. The program's wrapping conversion breaks them for an element that rounds to 128 (`Quantizer.WrapOnlyAt128`).
- Quantizer.QuantizeMatrixFaithful: as for QuantizeVectorFaithful, the property is proved for the saturating quantizer only.
- Inference.Infer: a bias of length 1 is broadcast by numpy's `+=` across all neurons of its layer (05_compare_models.py:66 and 75). The model requires one bias entry per neuron and reports a dimension error otherwise. The header export also takes the layer sizes from the bias lengths (04_quantize_model.py:65-66). The model also returns a class where the `np.squeeze` calls (05_compare_models.py:62 and 71) drop an axis and the program raises: with one class, layer2 becomes 1-D and `argmax(axis=1)` (05_compare_models.py:83) fails; with one hidden neuron and two or more images, the layer-2 `matmul` gets mismatched shapes; with a batch of one image, `argmax(axis=1)` again meets a 1-D array. With an empty input layer (img_size 0) the reshape at 05_compare_models.py:46 raises, because numpy cannot infer the `-1` extent next to a zero one, while the model returns a class.
- FixedPoint.ShiftRight: a negative count goes to numpy's `right_shift`, which fills with the sign bit (0 or -1); it is not a left shift.
- FixedPoint: the int32 arithmetic follows numpy 1.x from 1.17 on. Its `right_shift` fills with the sign bit for negative and too-large counts; older releases used C's `>>`. Its value-based promotion keeps the layers int32 when shifted by the `np.int64` bit counts read from the HDF5 attributes. Under NumPy 2's promotion rules the shift yields int64, and the int32 wrap after the shift would not happen.
- No error for a negative bit count: `2 ** bits` is then 0.5, 0.25, … and quantization goes on, so the model has no such error.
- No error is raised when a value rounds to 128: the int8 conversion silently wraps it to -128 (see Findings). The corrected quantizer saturates to 127 instead of raising an error.
- Inference.ZeroImage: with the ReLU an all-zero image gives layer1 = max(bias1, 0), and layer2 = bias2 only when no layer-1 bias is positive.

## Findings

| source | as written | input that shows it | evidently intended | confidence | as-written member | corrected member |
|---|---|---|---|---|---|---|
| 04_quantize_model.py:47-61 | the bit count admits magnitudes up to exactly 128 after scaling, and the int8 cast wraps 128 to -128 | any tensor whose largest magnitude 2^e, a power of two, belongs to a positive element, such as the bias [1.0, -0.5] (`Quantizer.BiasOneWraps`): 7 bits, 1.0 * 2^7 = 128, stored as -128, which reads back as -1.0 | the largest element stored as 127 (saturation), keeping its sign and an error of at most one step | high, not executed | Quantizer.PowerOfTwoMaximumWraps | Quantizer.Quantize |

=== FILE: export.dfy ===
/** The C header the quantizer writes for the microcontroller: the four
    int8 arrays, the weight matrices transposed so that each row holds the
    weights of one output neuron, followed by the fractional-bit counts and
    the layer sizes. Only the header's contents are modelled, not its text. */
module Export {

  import opened Matrices
  import opened Network
  import Quantizer
  import Inference

  /** The declarations of the generated header. */
  datatype Header = Header(
    l1Weights: seq<seq<int>>,
    l1Bias: seq<int>,
    l2Weights: seq<seq<int>>,
    l2Bias: seq<int>,
    imgBits: int,
    l1wBits: int,
    l1bBits: int,
    l2wBits: int,
    l2bBits: int,
    imgSize: nat,
    l1Size: nat,
    l2Size: nat)
  {
    /** Every array holds exactly the extents its declaration states:
        `l1_weights[l1_size][img_size]`, `l1_bias[l1_size]`,
        `l2_weights[l2_size][l1_size]` and `l2_bias[l2_size]`. */
    predicate Consistent()
    {
      IsMatrix(l1Weights, l1Size, imgSize) && |l1Bias| == l1Size &&
      IsMatrix(l2Weights, l2Size, l1Size) && |l2Bias| == l2Size
    }
  }

  /** Number of columns of a rectangular array (0 for one without rows). */
  function Cols(m: seq<seq<int>>): nat
  {
    if |m| == 0 then 0 else |m[0]|
  }

  /** All rows of m have the same length, as in a two-dimensional numpy
      array. */
  predicate Rectangular(m: seq<seq<int>>)
  {
    IsMatrix(m, |m|, Cols(m))
  }

  /** The header for a quantized network: weights transposed to
      output x input, biases as they are, image bits 8, the four bit counts,
      and the sizes read off the layer-1 weight rows and the two biases. */
  function ExportHeader(q: FixedModel): (h: Header)
    requires Rectangular(q.l1Weights) && Rectangular(q.l2Weights)
    ensures IsMatrix(h.l1Weights, Cols(q.l1Weights), q.ImgSize())
    ensures IsMatrix(h.l2Weights, Cols(q.l2Weights), |q.l2Weights|)
    ensures forall o, i :: 0 <= o < Cols(q.l1Weights) && 0 <= i < q.ImgSize() ==>
              h.l1Weights[o][i] == q.l1Weights[i][o]
    ensures forall o, i :: 0 <= o < Cols(q.l2Weights) && 0 <= i < |q.l2Weights| ==>
              h.l2Weights[o][i] == q.l2Weights[i][o]
    ensures h.l1Bias == q.l1Bias && h.l2Bias == q.l2Bias
    ensures h.imgBits == ImgBits
    ensures h.l1wBits == q.l1wBits && h.l1bBits == q.l1bBits
    ensures h.l2wBits == q.l2wBits && h.l2bBits == q.l2bBits
    ensures h.imgSize == q.ImgSize() && h.l1Size == q.L1Size() && h.l2Size == q.L2Size()
  {
    Header(Transpose(q.l1Weights, Cols(q.l1Weights)), q.l1Bias,
           Transpose(q.l2Weights, Cols(q.l2Weights)), q.l2Bias,
           ImgBits, q.l1wBits, q.l1bBits, q.l2wBits, q.l2bBits,
           q.ImgSize(), q.L1Size(), q.L2Size())
  }

  /** A network with at least one input, hidden and output neuron. */
  predicate NonEmptyLayers(q: FixedModel)
  {
    q.ImgSize() > 0 && q.L1Size() > 0 && q.L2Size() > 0
  }

  /** The header's declared extents match its arrays exactly when the
      network's tensors fit together. */
  lemma ExportLayoutConsistent(q: FixedModel)
    requires Rectangular(q.l1Weights) && Rectangular(q.l2Weights)
    requires NonEmptyLayers(q)
    ensures ExportHeader(q).Consistent() <==> q.WellShaped()
  {
    var h := ExportHeader(q);
    if h.Consistent() {
      assert Cols(q.l1Weights) == q.L1Size() by {
        assert |h.l1Weights| == Cols(q.l1Weights);
      }
      assert |q.l2Weights| == q.L1Size() by {
        assert |h.l2Weights[0]| == |q.l2Weights|;
      }
    }
  }

  /** Reading a consistent header back into a network: transpose the
      weights to input x output again and take the bit counts. */
  function ReadHeader(h: Header): (q: FixedModel)
    requires h.Consistent()
    ensures q.WellShaped()
    ensures q.ImgSize() == h.imgSize && q.L1Size() == h.l1Size && q.L2Size() == h.l2Size
  {
    FixedModel(Transpose(h.l1Weights, h.imgSize), h.l1Bias,
               Transpose(h.l2Weights, h.l1Size), h.l2Bias,
               h.l1wBits, h.l1bBits, h.l2wBits, h.l2bBits)
  }

  /** The header loses nothing: reading it back gives the network it was
      written from. */
  lemma ExportRoundTrip(q: FixedModel)
    requires q.WellShaped() && NonEmptyLayers(q)
    ensures ExportHeader(q).Consistent()
    ensures ReadHeader(ExportHeader(q)) == q
  {
    var h := ExportHeader(q);
    ExportLayoutConsistent(q);
    TransposeTwice(q.l1Weights, q.L1Size());
    TransposeTwice(q.l2Weights, q.L2Size());
  }

  /** Output o of a layer as the device computes it from the header: the
      sum over i of row o's weight i times input i. */
  function RowDot(row: seq<int>, v: seq<int>): int
    requires |row| == |v|
  {
    if |v| == 0 then 0
    else
      var n := |v| - 1;
      RowDot(row[..n], v[..n]) + row[n] * v[n]
  }

  /** The transposed layout computes the same products: row o of the
      header's weights dotted with the input is column o of the network's
      weights dotted with it. */
  lemma {:induction false} TransposedRowDot(w: seq<seq<int>>, cols: nat, o: nat, v: seq<int>)
    requires IsMatrix(w, |v|, cols) && o < cols
    ensures |Transpose(w, cols)[o]| == |v|
    ensures RowDot(Transpose(w, cols)[o], v) == Inference.ColumnDot(w, o, v)
  {
    var row := Transpose(w, cols)[o];
    if |v| > 0 {
      var n := |v| - 1;
      var w' := w[..n];
      TransposedRowDot(w', cols, o, v[..n]);
      assert Transpose(w', cols)[o] == row[..n];
    }
  }

  /** The constants the header declares for a network quantized from the
      trained tensors: 8 image bits, each tensor's own bit count, and the
      sizes of the trained layers. */
  lemma AsWrittenConstants(fm: Quantizer.FloatModel)
    requires fm.WellShaped()
    requires Quantizer.QuantizeModel(fm).Ok?
    ensures Quantizer.QuantizeModelAsWritten(fm).Ok?
    ensures var a, q := Quantizer.QuantizeModelAsWritten(fm).value, Quantizer.QuantizeModel(fm).value;
            Rectangular(a.l1Weights) && Rectangular(a.l2Weights) &&
            var h, g := ExportHeader(a), ExportHeader(q);
            h.imgBits == g.imgBits && h.l1wBits == g.l1wBits && h.l1bBits == g.l1bBits &&
            h.l2wBits == g.l2wBits && h.l2bBits == g.l2bBits &&
            h.imgSize == |fm.l1Weights| && h.l1Size == |fm.l1Bias| && h.l2Size == |fm.l2Bias|
  {
    Quantizer.QuantizeModelAgrees(fm);
    Quantizer.QuantizedModelAsWrittenIsInt8(fm);
    var a := Quantizer.QuantizeModelAsWritten(fm).value;
    assert Rectangular(a.l1Weights) by {
      assert IsMatrix(a.l1Weights, a.ImgSize(), a.L1Size());
      if |a.l1Weights| > 0 {
        assert Cols(a.l1Weights) == a.L1Size();
      }
    }
    assert Rectangular(a.l2Weights) by {
      assert IsMatrix(a.l2Weights, a.L1Size(), a.L2Size());
      if |a.l2Weights| > 0 {
        assert Cols(a.l2Weights) == a.L2Size();
      }
    }
  }

  lemma ExportedConstants(fm: Quantizer.FloatModel)
    requires fm.WellShaped()
    ensures Quantizer.QuantizeModel(fm).Ok? ==>
              var q := Quantizer.QuantizeModel(fm).value;
              Rectangular(q.l1Weights) && Rectangular(q.l2Weights) &&
              var h := ExportHeader(q);
              h.imgBits == 8 &&
              Quantizer.BitsFit(Flatten(fm.l1Weights), h.l1wBits) &&
              Quantizer.BitsFit(fm.l1Bias, h.l1bBits) &&
              Quantizer.BitsFit(Flatten(fm.l2Weights), h.l2wBits) &&
              Quantizer.BitsFit(fm.l2Bias, h.l2bBits) &&
              h.imgSize == |fm.l1Weights| && h.l1Size == |fm.l1Bias| && h.l2Size == |fm.l2Bias|
    ensures Quantizer.QuantizeModelAsWritten(fm).Ok? ==>
              var a := Quantizer.QuantizeModelAsWritten(fm).value;
              Rectangular(a.l1Weights) && Rectangular(a.l2Weights) &&
              var h := ExportHeader(a);
              h.imgBits == 8 &&
              Quantizer.BitsFit(Flatten(fm.l1Weights), h.l1wBits) &&
              Quantizer.BitsFit(fm.l1Bias, h.l1bBits) &&
              Quantizer.BitsFit(Flatten(fm.l2Weights), h.l2wBits) &&
              Quantizer.BitsFit(fm.l2Bias, h.l2bBits) &&
              h.imgSize == |fm.l1Weights| && h.l1Size == |fm.l1Bias| && h.l2Size == |fm.l2Bias|
  {
    if Quantizer.QuantizeModel(fm).Err? {
      Quantizer.QuantizeModelAgrees(fm);
      return;
    }
    AsWrittenConstants(fm);
    var q := Quantizer.QuantizeModel(fm).value;
    Quantizer.QuantizedModelIsInt8(fm);
    assert Rectangular(q.l1Weights) by {
      assert IsMatrix(q.l1Weights, q.ImgSize(), q.L1Size());
      if |q.l1Weights| > 0 {
        assert Cols(q.l1Weights) == q.L1Size();
      }
    }
    assert Rectangular(q.l2Weights) by {
      assert IsMatrix(q.l2Weights, q.L1Size(), q.L2Size());
      if |q.l2Weights| > 0 {
        assert Cols(q.l2Weights) == q.L2Size();
      }
    }
  }

}

=== FILE: fixed_point.dfy ===
/** Integer widths and the shift used by the fixed-point datapath: powers of
    two, two's-complement wrap-around of numpy's int32 and int8 types, and
    numpy's `right_shift` on int32 values. */
module FixedPoint {

  /** 2^k for a natural exponent. */
  function Pow2(k: nat): (r: nat)
    ensures r >= 1
  {
    if k == 0 then 1 else 2 * Pow2(k - 1)
  }

  /** Half the number of states of a signed 32-bit and a signed 8-bit integer. */
  const Int32Half: int := 0x8000_0000
  const Int8Half: int := 0x80

  predicate IsInt32(x: int) { -Int32Half <= x < Int32Half }
  predicate IsInt8(x: int) { -Int8Half <= x < Int8Half }
  predicate IsUInt8(x: int) { 0 <= x < 256 }

  /** If q*d <= x < (q+1)*d for a positive d, then q is the floor of x/d. */
  lemma FloorDivUnique(x: int, d: int, q: int)
    requires d > 0
    requires q * d <= x < (q + 1) * d
    ensures x / d == q && x % d == x - q * d
  {
    var q', r' := x / d, x % d;
    assert x == q' * d + r' && 0 <= r' < d;
    if q' < q {
      assert q' + 1 <= q;
      MulMonotone(q' + 1, q, d);
      assert false;
    } else if q' > q {
      assert q + 1 <= q';
      MulMonotone(q + 1, q', d);
      assert false;
    }
  }

  lemma MulMonotone(a: int, b: int, d: int)
    requires a <= b && d >= 0
    ensures a * d <= b * d
  {
    assert b * d - a * d == (b - a) * d;
  }

  /** Euclidean division by a positive d is floor division and keeps the sign. */
  lemma DivBracket(x: int, d: int)
    requires d > 0
    ensures (x / d) * d <= x < (x / d + 1) * d
    ensures x / d < 0 <==> x < 0
  {
    var q := x / d;
    assert x == q * d + x % d;
    if x >= 0 && q < 0 {
      MulMonotone(q + 1, 0, d);
    }
    if x < 0 && q >= 0 {
      MulMonotone(0, q, d);
    }
  }

  /** Two's-complement reduction of x into [-half, half): the value that a
      signed integer type with 2*half states keeps of x. */
  function WrapSigned(x: int, half: int): (r: int)
    requires half > 0
    ensures -half <= r < half
    ensures (x - r) % (2 * half) == 0
    ensures -half <= x < half ==> r == x
  {
    WrapSignedFacts(x, half);
    (x + half) % (2 * half) - half
  }

  lemma WrapSignedFacts(x: int, half: int)
    requires half > 0
    ensures 0 <= (x + half) % (2 * half) < 2 * half
    ensures (x - ((x + half) % (2 * half) - half)) % (2 * half) == 0
    ensures -half <= x < half ==> (x + half) % (2 * half) == x + half
  {
    var d := 2 * half;
    var q, m := (x + half) / d, (x + half) % d;
    assert x + half == q * d + m;
    assert x - (m - half) == q * d;
    FloorDivUnique(q * d, d, q);
    if -half <= x < half {
      FloorDivUnique(x + half, d, 0);
    }
  }

  /** Adding a multiple of the modulus does not change the wrapped value. */
  lemma WrapSignedShift(x: int, k: int, half: int)
    requires half > 0
    ensures WrapSigned(x + k * (2 * half), half) == WrapSigned(x, half)
  {
    var d := 2 * half;
    var q := (x + half) / d;
    var r := (x + half) % d;
    assert x + half == q * d + r;
    assert (x + k * d) + half == (q + k) * d + r;
    FloorDivUnique((x + k * d) + half, d, q + k);
  }

  /** The int32 accumulator of numpy's int32 arithmetic: every result is
      reduced modulo 2^32 into [-2^31, 2^31). */
  function Wrap32(x: int): (r: int)
    ensures IsInt32(r)
    ensures (x - r) % 0x1_0000_0000 == 0
    ensures IsInt32(x) ==> r == x
  {
    WrapSigned(x, Int32Half)
  }

  /** Two's-complement reduction to int8: modulo 256 into [-128, 128). It
      models numpy's conversion of an integral float such as `np.round`'s
      output to int8; the quantizer only ever converts values in
      [-128, 128], where 128.0 is the one value out of range and becomes
      -128. */
  function CastInt8(x: int): (r: int)
    ensures IsInt8(r)
    ensures (x - r) % 256 == 0
    ensures IsInt8(x) ==> r == x
  {
    WrapSigned(x, Int8Half)
  }

  /** Wrapping after every addition gives the same int32 value as wrapping the
      exact sum once: an int32 accumulator can wrap at each step and still
      agree with the reduced total. */
  lemma Wrap32AddWrap32(a: int, b: int)
    ensures Wrap32(Wrap32(a) + b) == Wrap32(a + b)
  {
    var w := Wrap32(a);
    var k := (a - w) / 0x1_0000_0000;
    assert a - w == k * 0x1_0000_0000;
    assert a + b == (w + b) + k * (2 * Int32Half);
    WrapSignedShift(w + b, k, Int32Half);
  }

  /** numpy's `right_shift` on an int32 value x. For a count s in [0, 32) it
      is the arithmetic (sign-preserving) shift, which is floor division by
      2^s; for any other count, negative counts included, every bit is
      shifted out and only the sign is left (0 or -1). For an int32 x and
      s >= 32 floor division by 2^s also gives that 0 or -1, so one formula
      serves every non-negative count. */
  function ShiftRight(x: int, s: int): (r: int)
    ensures r < 0 <==> x < 0
    ensures s >= 0 ==> r * Pow2(s) <= x < (r + 1) * Pow2(s)
    ensures s < 0 ==> -1 <= r <= 0
  {
    if s >= 0 then
      DivBracket(x, Pow2(s));
      x / Pow2(s)
    else if x < 0 then -1 else 0
  }

  /** The shift as a device without a barrel shifter performs it: s
      single-bit arithmetic shifts in a row. */
  function HalveRepeatedly(x: int, s: nat): int
  {
    if s == 0 then x else HalveRepeatedly(x, s - 1) / 2
  }

  /** For a non-negative count, the right shift is the same as s single-bit
      arithmetic shifts. */
  lemma {:induction false} ShiftRightIsRepeatedHalving(x: int, s: nat)
    ensures ShiftRight(x, s) == HalveRepeatedly(x, s)
  {
    if s == 0 {
      FloorDivUnique(x, 1, x);
    } else {
      ShiftRightIsRepeatedHalving(x, s - 1);
      var d := Pow2(s - 1);
      var q := ShiftRight(x, s - 1);
      var h := q / 2;
      assert 2 * h <= q < 2 * h + 2;
      MulMonotone(2 * h, q, d);
      MulMonotone(q + 1, 2 * h + 2, d);
      assert h * Pow2(s) == 2 * h * d;
      assert (h + 1) * Pow2(s) == (2 * h + 2) * d;
      FloorDivUnique(x, Pow2(s), h);
    }
  }

  /** Shifting then adding a bias is monotone in the shifted value. */
  lemma ShiftBiasMonotone(a: int, b: int, s: int, bias: int)
    requires a <= b
    ensures ShiftRight(a, s) + bias <= ShiftRight(b, s) + bias
  {
    if s >= 0 {
      var ra, rb := ShiftRight(a, s), ShiftRight(b, s);
      if ra > rb {
        MulMonotone(rb + 1, ra, Pow2(s));
        assert false;
      }
    }
  }

  /** A multiple of a positive count is at least the multiplied value when
      that is non-negative, and at most it when that is non-positive. */
  lemma MulByPositive(n: int, p: int)
    requires p >= 1
    ensures n >= 0 ==> n * p >= n
    ensures n <= 0 ==> n * p <= n
  {
    if n >= 0 {
      MulMonotone(1, p, n);
    } else {
      MulMonotone(1, p, -n);
      assert (-n) * p == -(n * p);
    }
  }

  /** The shift never increases the magnitude of its operand. */
  lemma ShiftRightShrinks(x: int, s: int)
    ensures x >= 0 ==> 0 <= ShiftRight(x, s) <= x
    ensures x < 0 ==> x <= ShiftRight(x, s) < 0
  {
    if s >= 0 {
      var r, p := ShiftRight(x, s), Pow2(s);
      if x >= 0 {
        MulByPositive(r, p);
      } else {
        MulByPositive(r + 1, p);
      }
    }
  }

}

=== FILE: hardmax.dfy ===
/** The "hard-max" that ends inference: the index of the largest output
    score, taken directly on the integer layer-2 outputs instead of after a
    softmax, which would need a floating-point exponential. Ties go to the
    first largest index, as with numpy's `argmax`. */
module HardMax {

  /** k is the first index of a largest score. */
  predicate IsFirstMax(s: seq<int>, k: int)
  {
    0 <= k < |s| &&
    (forall j :: 0 <= j < |s| ==> s[j] <= s[k]) &&
    (forall j :: 0 <= j < k ==> s[j] < s[k])
  }

  /** The same notion for real-valued scores, such as probabilities. */
  predicate IsFirstMaxReal(t: seq<real>, k: int)
  {
    0 <= k < |t| &&
    (forall j :: 0 <= j < |t| ==> t[j] <= t[k]) &&
    (forall j :: 0 <= j < k ==> t[j] < t[k])
  }

  /** numpy's `argmax` over a non-empty sequence of scores. */
  function Argmax(s: seq<int>): (k: nat)
    requires |s| > 0
    ensures IsFirstMax(s, k)
  {
    if |s| == 1 then 0
    else
      var n := |s| - 1;
      var k' := Argmax(s[..n]);
      assert forall j :: 0 <= j < n ==> s[..n][j] == s[j];
      if s[n] > s[k'] then n else k'
  }

  /** There is only one first largest index. */
  lemma FirstMaxUnique(s: seq<int>, a: int, b: int)
    requires IsFirstMax(s, a) && IsFirstMax(s, b)
    ensures a == b
  {
    assert s[a] == s[b];
  }

  /** The hard-max as a device computes it: one pass over the scores that
      keeps the first largest seen so far. */
  method HardMaxLoop(s: seq<int>) returns (k: nat)
    requires |s| > 0
    ensures k == Argmax(s)
  {
    k := 0;
    var i := 1;
    while i < |s|
      invariant 1 <= i <= |s|
      invariant k == Argmax(s[..i])
    {
      assert s[..i + 1][..i] == s[..i];
      if s[i] > s[k] {
        k := i;
      }
      i := i + 1;
    }
    assert s[..|s|] == s;
  }

  /** f preserves the strict order of scores. */
  ghost predicate StrictlyIncreasing(f: int -> real)
  {
    forall x, y :: x < y ==> f(x) < f(y)
  }

  /** The scores after an element-wise map. */
  function MapScores(f: int -> real, s: seq<int>): (t: seq<real>)
    ensures |t| == |s|
    ensures forall j :: 0 <= j < |s| ==> t[j] == f(s[j])
  {
    seq(|s|, j requires 0 <= j < |s| => f(s[j]))
  }

  /** The hard-max is unchanged by any strictly increasing element-wise map:
      the first largest index of the mapped scores is exactly the argmax of
      the scores. */
  lemma ArgmaxUnderIncreasingMap(s: seq<int>, f: int -> real, k: int)
    requires |s| > 0
    requires StrictlyIncreasing(f)
    ensures IsFirstMaxReal(MapScores(f, s), k) <==> k == Argmax(s)
  {
    var t := MapScores(f, s);
    var a := Argmax(s);
    forall j | 0 <= j < |s|
      ensures t[j] <= t[a]
      ensures j < a ==> t[j] < t[a]
    {
      if s[j] < s[a] {
        assert f(s[j]) < f(s[a]);
      }
    }
    assert IsFirstMaxReal(t, a);
    if IsFirstMaxReal(t, k) {
      FirstMaxRealUnique(t, k, a);
    }
  }

  lemma FirstMaxRealUnique(t: seq<real>, a: int, b: int)
    requires IsFirstMaxReal(t, a) && IsFirstMaxReal(t, b)
    ensures a == b
  {
    assert t[a] == t[b];
  }

  /** Sum of real scores. */
  function SumReal(t: seq<real>): real
  {
    if |t| == 0 then 0.0 else t[0] + SumReal(t[1..])
  }

  lemma {:induction false} SumRealPositive(t: seq<real>)
    requires |t| > 0
    requires forall j :: 0 <= j < |t| ==> t[j] > 0.0
    ensures SumReal(t) > 0.0
  {
    if |t| > 1 {
      SumRealPositive(t[1..]);
    }
  }

  /** softmax(s)[j] = g(s[j]) / sum of g over s, for a positive increasing
      g; the commented-out float path divides the scores by 2^l2b_bits and
      takes `exp`, which is one such g. */
  function Softmax(s: seq<int>, g: int -> real): (p: seq<real>)
    requires forall x :: g(x) > 0.0
    ensures |p| == |s|
    ensures forall j :: 0 <= j < |s| ==> p[j] > 0.0
  {
    if |s| == 0 then []
    else
      var t := MapScores(g, s);
      PositiveScores(s, g);
      SumRealPositive(t);
      var z := SumReal(t);
      seq(|s|, j requires 0 <= j < |s| => g(s[j]) / z)
  }

  lemma PositiveScores(s: seq<int>, g: int -> real)
    requires forall x :: g(x) > 0.0
    ensures forall j :: 0 <= j < |s| ==> MapScores(g, s)[j] > 0.0
  {
    forall j | 0 <= j < |s|
      ensures MapScores(g, s)[j] > 0.0
    {
      var x := s[j];
      assert g(x) > 0.0;
      assert MapScores(g, s)[j] == g(x);
    }
  }

  /** Taking the hard-max instead of softmax-then-argmax never changes the
      prediction. */
  lemma SoftmaxArgmax(s: seq<int>, g: int -> real, k: int)
    requires |s| > 0
    requires forall x :: g(x) > 0.0
    requires StrictlyIncreasing(g)
    ensures IsFirstMaxReal(Softmax(s, g), k) <==> k == Argmax(s)
  {
    var t := MapScores(g, s);
    PositiveScores(s, g);
    SumRealPositive(t);
    var z := SumReal(t);
    var f := (x: int) => g(x) / z;
    ScaledIsIncreasing(g, z, f);
    SoftmaxIsScaledMap(s, g, z, f);
    ArgmaxUnderIncreasingMap(s, f, k);
  }

  lemma ScaledIsIncreasing(g: int -> real, z: real, f: int -> real)
    requires StrictlyIncreasing(g) && z > 0.0
    requires forall x :: f(x) == g(x) / z
    ensures StrictlyIncreasing(f)
  {
    forall x, y | x < y
      ensures f(x) < f(y)
    {
      DivideKeepsOrder(g(x), g(y), z);
    }
  }

  lemma SoftmaxIsScaledMap(s: seq<int>, g: int -> real, z: real, f: int -> real)
    requires |s| > 0
    requires forall x :: g(x) > 0.0
    requires z == SumReal(MapScores(g, s)) && z > 0.0
    requires forall x :: f(x) == g(x) / z
    ensures Softmax(s, g) == MapScores(f, s)
  {
    PositiveScores(s, g);
    SumRealPositive(MapScores(g, s));
    var p, q := Softmax(s, g), MapScores(f, s);
    forall j | 0 <= j < |s|
      ensures p[j] == q[j]
    {
      var x := s[j];
      assert p[j] == g(x) / z;
      assert q[j] == f(x) == g(x) / z;
    }
  }

  /** Every score divided by z. */
  function DivideAll(t: seq<real>, z: real): (u: seq<real>)
    requires z != 0.0
    ensures |u| == |t|
  {
    seq(|t|, j requires 0 <= j < |t| => t[j] / z)
  }

  lemma {:induction false} SumRealDivide(t: seq<real>, z: real)
    requires z != 0.0
    ensures SumReal(DivideAll(t, z)) == SumReal(t) / z
  {
    if |t| > 0 {
      var u := DivideAll(t, z);
      assert u[1..] == DivideAll(t[1..], z);
      SumRealDivide(t[1..], z);
      AddDivide(t[0], SumReal(t[1..]), z);
    }
  }

  lemma AddDivide(a: real, b: real, z: real)
    requires z != 0.0
    ensures a / z + b / z == (a + b) / z
  {
  }

  lemma {:induction false} ElementBelowSum(t: seq<real>, j: int)
    requires forall i :: 0 <= i < |t| ==> t[i] >= 0.0
    requires 0 <= j < |t|
    ensures t[j] <= SumReal(t)
  {
    if j == 0 {
      SumRealNonNegative(t[1..]);
    } else {
      ElementBelowSum(t[1..], j - 1);
    }
  }

  lemma {:induction false} SumRealNonNegative(t: seq<real>)
    requires forall i :: 0 <= i < |t| ==> t[i] >= 0.0
    ensures SumReal(t) >= 0.0
  {
    if |t| > 0 {
      SumRealNonNegative(t[1..]);
    }
  }

  /** Softmax is a probability distribution: its values add up to 1, so
      each lies in (0, 1]. */
  lemma SoftmaxSumsToOne(s: seq<int>, g: int -> real)
    requires |s| > 0
    requires forall x :: g(x) > 0.0
    ensures SumReal(Softmax(s, g)) == 1.0
    ensures forall j :: 0 <= j < |s| ==> Softmax(s, g)[j] <= 1.0
  {
    var t := MapScores(g, s);
    PositiveScores(s, g);
    SumRealPositive(t);
    var z := SumReal(t);
    var p := Softmax(s, g);
    assert p == DivideAll(t, z);
    SumRealDivide(t, z);
    assert SumReal(p) == 1.0;
    forall j | 0 <= j < |s|
      ensures p[j] <= 1.0
    {
      ElementBelowSum(p, j);
    }
  }

  lemma DivideKeepsOrder(a: real, b: real, z: real)
    requires a < b && z > 0.0
    ensures a / z < b / z
  {
  }

}

=== FILE: inference.dfy ===
/** The fixed-point inference engine: two integer matrix-vector products
    with int32 accumulation, each followed by a right shift that realigns the
    product to the bias precision and by the bias addition, a ReLU between
    the layers, and the hard-max of the layer-2 outputs as the prediction. */
module Inference {

  import opened Results
  import opened FixedPoint
  import opened Matrices
  import opened Network
  import opened HardMax
  import Pooling

  /** Why an inference call is refused: the image or a tensor does not fit
      the others, or there is no output neuron to take the argmax of. */
  datatype EngineError = DimensionMismatch | EmptyOutput

  /** Sum over i of w[i][col] * v[i]: output col of the product of w's
      transpose with v, before any wrap-around. */
  function ColumnDot(w: seq<seq<int>>, col: nat, v: seq<int>): int
    requires |w| == |v|
    requires forall i :: 0 <= i < |w| ==> col < |w[i]|
  {
    if |v| == 0 then 0
    else
      var n := |v| - 1;
      ColumnDot(w[..n], col, v[..n]) + w[n][col] * v[n]
  }

  /** One neuron before its activation: the int32 product, right-shifted to
      the bias precision, plus the bias, the addition again in int32. */
  function Neuron(raw: int, s: int, bias: int): int
  {
    Wrap32(ShiftRight(Wrap32(raw), s) + bias)
  }

  /** ReLU as the masked product `x *= x > 0`: max(x, 0). */
  function Relu(x: int): int
  {
    if x > 0 then x else 0
  }

  function ReluAll(v: seq<int>): (a: seq<int>)
    ensures |a| == |v|
    ensures forall h :: 0 <= h < |v| ==> a[h] == Relu(v[h])
  {
    seq(|v|, h requires 0 <= h < |v| => Relu(v[h]))
  }

  /** A dense layer before its activation: one neuron per bias entry, fed by
      the matching column of w. */
  function Dense(w: seq<seq<int>>, v: seq<int>, s: int, bias: seq<int>): (out: seq<int>)
    requires IsMatrix(w, |v|, |bias|)
    ensures |out| == |bias|
    ensures forall o :: 0 <= o < |bias| ==> IsInt32(out[o])
  {
    seq(|bias|, o requires 0 <= o < |bias| => Neuron(ColumnDot(w, o, v), s, bias[o]))
  }

  /** The layer-1 activations of an image. */
  function Layer1(q: FixedModel, img: seq<int>): (a: seq<int>)
    requires q.WellShaped() && |img| == q.ImgSize()
    ensures |a| == q.L1Size()
    ensures forall h :: 0 <= h < |a| ==> 0 <= a[h] && IsInt32(a[h])
  {
    ReluAll(Dense(q.l1Weights, img, q.Shift1(), q.l1Bias))
  }

  /** The layer-2 outputs (logits) of an image. */
  function Layer2(q: FixedModel, img: seq<int>): (out: seq<int>)
    requires q.WellShaped() && |img| == q.ImgSize()
    ensures |out| == q.L2Size()
  {
    Dense(q.l2Weights, Layer1(q, img), q.Shift2(), q.l2Bias)
  }

  /** The prediction for one flattened image: the first index of the largest
      layer-2 output. */
  function Infer(q: FixedModel, img: seq<int>): (r: Result<nat, EngineError>)
    ensures r == Err(DimensionMismatch) <==> !(q.WellShaped() && |img| == q.ImgSize())
    ensures r == Err(EmptyOutput) <==> q.WellShaped() && |img| == q.ImgSize() && q.L2Size() == 0
    ensures r.Ok? ==> q.WellShaped() && |img| == q.ImgSize() &&
                      r.value < q.L2Size() && IsFirstMax(Layer2(q, img), r.value)
  {
    if !(q.WellShaped() && |img| == q.ImgSize()) then Err(DimensionMismatch)
    else if q.L2Size() == 0 then Err(EmptyOutput)
    else Ok(Argmax(Layer2(q, img)))
  }

  /** A dense layer as the device computes it: for every output, an int32
      accumulator that wraps after each multiply-add, then the shift, the
      bias and, for the hidden layer, the ReLU. */
  method DenseLoop(w: seq<seq<int>>, v: seq<int>, s: int, bias: seq<int>, relu: bool)
    returns (out: seq<int>)
    requires IsMatrix(w, |v|, |bias|)
    ensures out == if relu then ReluAll(Dense(w, v, s, bias)) else Dense(w, v, s, bias)
  {
    out := [];
    var o := 0;
    while o < |bias|
      invariant 0 <= o <= |bias|
      invariant |out| == o
      invariant forall k :: 0 <= k < o ==>
                  out[k] == (var n := Neuron(ColumnDot(w, k, v), s, bias[k]); if relu then Relu(n) else n)
    {
      var acc := 0;
      var i := 0;
      while i < |v|
        invariant 0 <= i <= |v|
        invariant acc == Wrap32(ColumnDot(w[..i], o, v[..i]))
      {
        assert w[..i + 1][..i] == w[..i] && v[..i + 1][..i] == v[..i];
        Wrap32AddWrap32(ColumnDot(w[..i], o, v[..i]), w[i][o] * v[i]);
        acc := Wrap32(acc + w[i][o] * v[i]);
        i := i + 1;
      }
      assert w[..|v|] == w && v[..|v|] == v;
      var y := Wrap32(ShiftRight(acc, s) + bias[o]);
      if relu && y <= 0 {
        y := 0;
      }
      out := out + [y];
      o := o + 1;
    }
  }

  /** The whole prediction as the device runs it; it agrees with Infer on
      every input, error cases included. */
  method Classify(q: FixedModel, img: seq<int>) returns (r: Result<nat, EngineError>)
    ensures r == Infer(q, img)
  {
    if !(q.WellShaped() && |img| == q.ImgSize()) {
      return Err(DimensionMismatch);
    }
    if q.L2Size() == 0 {
      return Err(EmptyOutput);
    }
    var hidden := DenseLoop(q.l1Weights, img, q.Shift1(), q.l1Bias, true);
    var scores := DenseLoop(q.l2Weights, hidden, q.Shift2(), q.l2Bias, false);
    var k := HardMaxLoop(scores);
    return Ok(k);
  }

  /** Every pixel is an unsigned 8-bit value. */
  predicate IsPixelVector(img: seq<int>)
  {
    forall i :: 0 <= i < |img| ==> IsUInt8(img[i])
  }

  lemma ProductBound(a: int, b: int, ba: int, bb: int)
    requires -ba <= a <= ba && 0 <= b <= bb
    ensures -(ba * bb) <= a * b <= ba * bb
  {
    MulMonotone(a, ba, b);
    MulMonotone(-ba, a, b);
    MulMonotone(b, bb, ba);
  }

  /** With weights of magnitude at most bw and inputs in [0, bv], a column
      product of n terms has magnitude at most n*bw*bv. */
  lemma {:induction false} ColumnDotBound(w: seq<seq<int>>, col: nat, v: seq<int>, bw: int, bv: int)
    requires |w| == |v|
    requires bw >= 0 && bv >= 0
    requires forall i :: 0 <= i < |w| ==> col < |w[i]| && -bw <= w[i][col] <= bw
    requires forall i :: 0 <= i < |v| ==> 0 <= v[i] <= bv
    ensures -(|v| * bw * bv) <= ColumnDot(w, col, v) <= |v| * bw * bv
  {
    if |v| > 0 {
      var n := |v| - 1;
      ColumnDotBound(w[..n], col, v[..n], bw, bv);
      ProductBound(w[n][col], v[n], bw, bv);
      assert |v| * bw * bv == n * bw * bv + bw * bv;
    }
  }

  /** Against an all-zero vector every column product is zero. */
  lemma {:induction false} ColumnDotZero(w: seq<seq<int>>, col: nat, v: seq<int>)
    requires |w| == |v|
    requires forall i :: 0 <= i < |w| ==> col < |w[i]|
    requires forall i :: 0 <= i < |v| ==> v[i] == 0
    ensures ColumnDot(w, col, v) == 0
  {
    if |v| > 0 {
      ColumnDotZero(w[..|v| - 1], col, v[..|v| - 1]);
    }
  }

  /** Largest magnitude of a layer-1 accumulator: img_size terms of an int8
      weight (at most 128 in magnitude) times a uint8 pixel. */
  function L1AccBound(q: FixedModel): nat
  {
    q.ImgSize() * 128 * 255
  }

  /** No layer-1 accumulator, shifted value or biased value leaves int32. For
      the 196-pixel input of a 14x14 picture the bound is 6397440 + 128,
      far below 2^31, whatever the shift counts. */
  predicate Layer1NeverWraps(q: FixedModel)
  {
    L1AccBound(q) + 128 <= Int32Half
  }

  /** Largest layer-1 activation when layer 1 never wraps. */
  function L1ActBound(q: FixedModel): int
  {
    ShiftRight(L1AccBound(q), q.Shift1()) + 127
  }

  /** No layer-2 accumulator, shifted value or biased value leaves int32. */
  predicate Layer2NeverWraps(q: FixedModel)
  {
    q.L1Size() * 128 * L1ActBound(q) + 128 <= Int32Half
  }

  /** When layer 1 cannot wrap, each activation is max(shifted sum + bias, 0)
      computed on unbounded integers, and lies in [0, L1ActBound]. */
  lemma Layer1ClosedForm(q: FixedModel, img: seq<int>)
    requires q.WellShaped() && q.IsInt8Model()
    requires |img| == q.ImgSize() && IsPixelVector(img)
    requires Layer1NeverWraps(q)
    ensures forall h :: 0 <= h < q.L1Size() ==>
              IsInt32(ColumnDot(q.l1Weights, h, img)) &&
              Layer1(q, img)[h] == Relu(ShiftRight(ColumnDot(q.l1Weights, h, img), q.Shift1()) + q.l1Bias[h]) &&
              Layer1(q, img)[h] <= L1ActBound(q)
  {
    var a := Layer1(q, img);
    var bound := L1AccBound(q);
    forall h | 0 <= h < q.L1Size()
      ensures IsInt32(ColumnDot(q.l1Weights, h, img))
      ensures a[h] == Relu(ShiftRight(ColumnDot(q.l1Weights, h, img), q.Shift1()) + q.l1Bias[h])
      ensures a[h] <= L1ActBound(q)
    {
      var raw := ColumnDot(q.l1Weights, h, img);
      ColumnDotBound(q.l1Weights, h, img, 128, 255);
      var sh := ShiftRight(raw, q.Shift1());
      ShiftRightShrinks(raw, q.Shift1());
      ShiftBiasMonotone(raw, bound, q.Shift1(), q.l1Bias[h]);
      ShiftRightShrinks(bound, q.Shift1());
      assert a[h] == Relu(Wrap32(sh + q.l1Bias[h]));
    }
  }

  /** When neither layer can wrap, each layer-2 output is the shifted sum
      plus bias computed on unbounded integers. */
  lemma Layer2ClosedForm(q: FixedModel, img: seq<int>)
    requires q.WellShaped() && q.IsInt8Model()
    requires |img| == q.ImgSize() && IsPixelVector(img)
    requires Layer1NeverWraps(q) && Layer2NeverWraps(q)
    ensures forall o :: 0 <= o < q.L2Size() ==>
              IsInt32(ColumnDot(q.l2Weights, o, Layer1(q, img))) &&
              Layer2(q, img)[o] == ShiftRight(ColumnDot(q.l2Weights, o, Layer1(q, img)), q.Shift2()) + q.l2Bias[o]
  {
    var a := Layer1(q, img);
    Layer1ClosedForm(q, img);
    var ab := L1ActBound(q);
    ShiftRightShrinks(L1AccBound(q), q.Shift1());
    assert ab >= 0;
    var out := Layer2(q, img);
    forall o | 0 <= o < q.L2Size()
      ensures IsInt32(ColumnDot(q.l2Weights, o, a))
      ensures out[o] == ShiftRight(ColumnDot(q.l2Weights, o, a), q.Shift2()) + q.l2Bias[o]
    {
      var raw := ColumnDot(q.l2Weights, o, a);
      ColumnDotBound(q.l2Weights, o, a, 128, ab);
      ShiftRightShrinks(raw, q.Shift2());
    }
  }

  /** An all-zero image gives layer1[h] = max(bias1[h], 0); when every
      layer-1 bias is at most zero, the layer-2 outputs are the layer-2
      biases and the prediction is their argmax. */
  lemma ZeroImage(q: FixedModel, img: seq<int>)
    requires q.WellShaped() && q.IsInt8Model()
    requires |img| == q.ImgSize()
    requires forall i :: 0 <= i < |img| ==> img[i] == 0
    ensures forall h :: 0 <= h < q.L1Size() ==> Layer1(q, img)[h] == Relu(q.l1Bias[h])
    ensures (forall h :: 0 <= h < q.L1Size() ==> q.l1Bias[h] <= 0) ==>
              Layer2(q, img) == q.l2Bias &&
              (q.L2Size() > 0 ==> Infer(q, img) == Ok(Argmax(q.l2Bias)))
  {
    var a := Layer1(q, img);
    forall h | 0 <= h < q.L1Size()
      ensures a[h] == Relu(q.l1Bias[h])
    {
      ColumnDotZero(q.l1Weights, h, img);
    }
    if forall h :: 0 <= h < q.L1Size() ==> q.l1Bias[h] <= 0 {
      var out := Layer2(q, img);
      forall o | 0 <= o < q.L2Size()
        ensures out[o] == q.l2Bias[o]
      {
        ColumnDotZero(q.l2Weights, o, a);
      }
    }
  }

  /** A 28x28 picture classified as the pipeline does it: 2x2 max pooling
      to 14x14, row-major flattening to 196 pixels, inference. */
  function ClassifyPicture(q: FixedModel, picture: seq<seq<int>>): (r: Result<nat, EngineError>)
    requires IsMatrix(picture, 2 * Pooling.PicSize, 2 * Pooling.PicSize)
    ensures q.WellShaped() && q.ImgSize() == Pooling.PicSize * Pooling.PicSize && q.L2Size() > 0 ==>
              r.Ok? && r.value < q.L2Size()
  {
    var small := Pooling.MaxPool(picture);
    FlattenLength(small, Pooling.PicSize);
    Infer(q, Flatten(small))
  }

  /** A pooled uint8 picture is a valid 196-pixel input, and for it layer 1
      never wraps and has the closed form of Layer1ClosedForm. */
  lemma PooledPictureFitsLayer1(q: FixedModel, picture: seq<seq<int>>)
    requires IsMatrix(picture, 2 * Pooling.PicSize, 2 * Pooling.PicSize)
    requires Pooling.IsUInt8Image(picture)
    requires q.WellShaped() && q.IsInt8Model()
    requires q.ImgSize() == Pooling.PicSize * Pooling.PicSize
    ensures var img := Flatten(Pooling.MaxPool(picture));
            |img| == q.ImgSize() && IsPixelVector(img) && Layer1NeverWraps(q) &&
            forall h :: 0 <= h < q.L1Size() ==>
              Layer1(q, img)[h] == Relu(ShiftRight(ColumnDot(q.l1Weights, h, img), q.Shift1()) + q.l1Bias[h])
  {
    var small := Pooling.MaxPool(picture);
    Pooling.PoolKeepsUInt8(picture, small);
    FlattenLength(small, Pooling.PicSize);
    var img := Flatten(small);
    forall i | 0 <= i < |img|
      ensures IsUInt8(img[i])
    {
      assert img[i] in img;
      var r :| 0 <= r < |small| && img[i] in small[r];
      var c :| 0 <= c < |small[r]| && small[r][c] == img[i];
    }
    Layer1ClosedForm(q, img);
  }

}

=== FILE: matrices.dfy ===
/** Two-dimensional arrays as sequences of rows: their shape, row-major
    flattening (numpy's `reshape` and the reduction over all elements) and
    the transpose (numpy's `.T`). */
module Matrices {

  import FixedPoint

  /** m is a rows x cols array. */
  predicate IsMatrix<T>(m: seq<seq<T>>, rows: nat, cols: nat)
  {
    |m| == rows && forall i :: 0 <= i < rows ==> |m[i]| == cols
  }

  /** Row-major flattening: the elements of m, row after row. */
  function Flatten<T>(m: seq<seq<T>>): (r: seq<T>)
    ensures forall i, x :: 0 <= i < |m| && x in m[i] ==> x in r
    ensures forall x :: x in r ==> exists i :: 0 <= i < |m| && x in m[i]
  {
    if |m| == 0 then [] else m[0] + Flatten(m[1..])
  }

  lemma MulBound(i: nat, rows: nat, cols: nat, j: nat)
    requires i < rows && j < cols
    ensures i * cols + j < rows * cols
  {
    FixedPoint.MulMonotone(i + 1, rows, cols);
    assert (i + 1) * cols == i * cols + cols;
  }

  /** Row i > 0 of m is row i - 1 of its tail, which starts cols positions
      further into the flattening. */
  lemma RowOffset(i: nat, j: nat, cols: nat, k: int)
    requires i > 0 && k == (i - 1) * cols + j
    ensures i * cols + j == cols + k
  {
  }

  /** A rows x cols array flattens to rows*cols elements. */
  lemma {:induction false} FlattenLength<T>(m: seq<seq<T>>, cols: nat)
    requires IsMatrix(m, |m|, cols)
    ensures |Flatten(m)| == |m| * cols
  {
    if |m| > 0 {
      FlattenLength(m[1..], cols);
      assert |m| * cols == (|m| - 1) * cols + cols;
    }
  }

  /** Row-major order: in a rows x cols array, element (i, j) sits at
      position i*cols + j of the flattened sequence. */
  lemma {:induction false} FlattenAt<T>(m: seq<seq<T>>, cols: nat, i: nat, j: nat)
    requires IsMatrix(m, |m|, cols)
    requires i < |m| && j < cols
    ensures i * cols + j < |Flatten(m)| && Flatten(m)[i * cols + j] == m[i][j]
  {
    FlattenLength(m, cols);
    MulBound(i, |m|, cols, j);
    if i > 0 {
      var rest := m[1..];
      var k := (i - 1) * cols + j;
      FlattenAt(rest, cols, i - 1, j);
      RowOffset(i, j, cols, k);
      assert Flatten(m) == m[0] + Flatten(rest);
    }
  }

  /** The transpose of a rows x cols array: a cols x rows array with
      t[j][i] = m[i][j]. The column count is a parameter because an array
      with no rows still has one. */
  function Transpose<T>(m: seq<seq<T>>, cols: nat): (t: seq<seq<T>>)
    requires IsMatrix(m, |m|, cols)
    ensures IsMatrix(t, cols, |m|)
    ensures forall j, i :: 0 <= j < cols && 0 <= i < |m| ==> t[j][i] == m[i][j]
  {
    seq(cols, j requires 0 <= j < cols => seq(|m|, i requires 0 <= i < |m| => m[i][j]))
  }

  /** Transposing twice gives back the array. */
  lemma TransposeTwice<T>(m: seq<seq<T>>, cols: nat)
    requires IsMatrix(m, |m|, cols)
    ensures Transpose(Transpose(m, cols), |m|) == m
  {
    var tt := Transpose(Transpose(m, cols), |m|);
    assert |tt| == |m|;
    forall i | 0 <= i < |m|
      ensures tt[i] == m[i]
    {
      assert |tt[i]| == |m[i]|;
    }
  }

}

=== FILE: network.dfy ===
/** The fixed-point network: the artefact the quantizer produces and every
    inference call reads. */
module Network {

  import opened FixedPoint
  import opened Matrices

  /** Fractional bits of an input pixel: a uint8 pixel p stands for p / 2^8. */
  const ImgBits: int := 8

  /** The four quantized tensors in their trained layout (layer-1 weights
      input x hidden, layer-2 weights hidden x output) and the fractional-bit
      count of each, as they are stored after quantization and loaded for
      inference. */
  datatype FixedModel = FixedModel(
    l1Weights: seq<seq<int>>,
    l1Bias: seq<int>,
    l2Weights: seq<seq<int>>,
    l2Bias: seq<int>,
    l1wBits: int,
    l1bBits: int,
    l2wBits: int,
    l2bBits: int)
  {
    /** The layer dimensions, read off the tensors: the rows of the layer-1
        weights and the lengths of the two bias vectors. */
    function ImgSize(): nat { |l1Weights| }
    function L1Size(): nat { |l1Bias| }
    function L2Size(): nat { |l2Bias| }

    /** The tensors fit together for the two matrix-vector products and the
        two bias additions. */
    predicate WellShaped()
    {
      IsMatrix(l1Weights, ImgSize(), L1Size()) && IsMatrix(l2Weights, L1Size(), L2Size())
    }

    /** Every weight and bias is a signed 8-bit value. */
    predicate IsInt8Model()
    {
      (forall i, h :: 0 <= i < |l1Weights| && 0 <= h < |l1Weights[i]| ==> IsInt8(l1Weights[i][h])) &&
      (forall h :: 0 <= h < |l1Bias| ==> IsInt8(l1Bias[h])) &&
      (forall h, o :: 0 <= h < |l2Weights| && 0 <= o < |l2Weights[h]| ==> IsInt8(l2Weights[h][o])) &&
      (forall o :: 0 <= o < |l2Bias| ==> IsInt8(l2Bias[o]))
    }

    /** Right-shift count that realigns a layer-1 product (image bits plus
        weight bits) to the layer-1 bias precision. */
    function Shift1(): int { ImgBits + l1wBits - l1bBits }

    /** Right-shift count that realigns a layer-2 product (layer-1 activation
        bits plus weight bits) to the layer-2 bias precision. */
    function Shift2(): int { l1bBits + l2wBits - l2bBits }
  }

}

=== FILE: pooling.dfy ===
/** Dataset preprocessing: every 28x28 uint8 MNIST picture is reduced to
    14x14 by 2x2 max pooling with stride 2, and the training and the test
    pictures go through the same reduction. */
module Pooling {

  import opened FixedPoint
  import opened Matrices

  /** Side length of a downsampled picture; the input is twice as wide. */
  const PicSize: nat := 14

  /** v is the largest element of s: no element exceeds it and one equals it. */
  predicate IsMaxOf(v: int, s: seq<int>)
  {
    (forall k :: 0 <= k < |s| ==> s[k] <= v) && (exists k :: 0 <= k < |s| && s[k] == v)
  }

  /** numpy's `max` reduction over a non-empty array. */
  function SeqMax(s: seq<int>): (r: int)
    requires |s| > 0
    ensures IsMaxOf(r, s)
  {
    if |s| == 1 then s[0]
    else
      var m := SeqMax(s[1..]);
      assert forall k :: 1 <= k < |s| ==> s[k] == s[1..][k - 1];
      if s[0] >= m then s[0] else m
  }

  /** Every pixel of img is an unsigned 8-bit value. */
  predicate IsUInt8Image(img: seq<seq<int>>)
  {
    forall i, j :: 0 <= i < |img| && 0 <= j < |img[i]| ==> IsUInt8(img[i][j])
  }

  /** a and b have the same shape and a is nowhere brighter than b. */
  predicate PointwiseLe(a: seq<seq<int>>, b: seq<seq<int>>)
  {
    |a| == |b| &&
    forall i :: 0 <= i < |a| ==> |a[i]| == |b[i]| && forall j :: 0 <= j < |a[i]| ==> a[i][j] <= b[i][j]
  }

  /** The 2x2 window with stride 2 whose top-left pixel is (2i, 2j), i.e.
      rows 2i..2i+1 and columns 2j..2j+1 of the input. */
  function Window(img: seq<seq<int>>, i: nat, j: nat): (w: seq<int>)
    requires IsMatrix(img, 2 * PicSize, 2 * PicSize)
    requires i < PicSize && j < PicSize
    ensures |w| == 4
  {
    [img[2 * i][2 * j], img[2 * i][2 * j + 1], img[2 * i + 1][2 * j], img[2 * i + 1][2 * j + 1]]
  }

  /** small is the 2x2 max pooling of img: 14x14, each pixel the largest
      pixel of its window. */
  predicate IsPooled(img: seq<seq<int>>, small: seq<seq<int>>)
  {
    IsMatrix(img, 2 * PicSize, 2 * PicSize) && IsMatrix(small, PicSize, PicSize) &&
    forall i, j :: 0 <= i < PicSize && 0 <= j < PicSize ==> IsMaxOf(small[i][j], Window(img, i, j))
  }

  /** The pooling of one 28x28 picture. */
  function MaxPool(img: seq<seq<int>>): (small: seq<seq<int>>)
    requires IsMatrix(img, 2 * PicSize, 2 * PicSize)
    ensures IsPooled(img, small)
  {
    seq(PicSize, i requires 0 <= i < PicSize =>
      seq(PicSize, j requires 0 <= j < PicSize => SeqMax(Window(img, i, j))))
  }

  /** The pooling of a whole dataset, one picture after the other; the
      training and the test set both go through it. */
  function PoolDataset(images: seq<seq<seq<int>>>): (smalls: seq<seq<seq<int>>>)
    requires forall k :: 0 <= k < |images| ==> IsMatrix(images[k], 2 * PicSize, 2 * PicSize)
    ensures |smalls| == |images|
    ensures forall k :: 0 <= k < |images| ==> IsPooled(images[k], smalls[k])
  {
    seq(|images|, k requires 0 <= k < |images| => MaxPool(images[k]))
  }

  /** A pooled uint8 picture is a uint8 picture. */
  lemma PoolKeepsUInt8(img: seq<seq<int>>, small: seq<seq<int>>)
    requires IsPooled(img, small)
    requires IsUInt8Image(img)
    ensures IsUInt8Image(small)
  {
    forall i, j | 0 <= i < |small| && 0 <= j < |small[i]|
      ensures IsUInt8(small[i][j])
    {
      var w := Window(img, i, j);
      var k :| 0 <= k < |w| && w[k] == small[i][j];
    }
  }

  /** The pooling of a picture is determined by it: two poolings of the same
      picture agree. */
  lemma PoolingUnique(img: seq<seq<int>>, a: seq<seq<int>>, b: seq<seq<int>>)
    requires IsPooled(img, a) && IsPooled(img, b)
    ensures a == b
  {
    forall i | 0 <= i < PicSize
      ensures a[i] == b[i]
    {
      forall j | 0 <= j < PicSize
        ensures a[i][j] == b[i][j]
      {
        var w := Window(img, i, j);
        var ka :| 0 <= ka < |w| && w[ka] == a[i][j];
        var kb :| 0 <= kb < |w| && w[kb] == b[i][j];
      }
    }
  }

  /** Brightening any input pixel never darkens any output pixel. */
  lemma PoolMonotone(a: seq<seq<int>>, b: seq<seq<int>>)
    requires IsMatrix(a, 2 * PicSize, 2 * PicSize) && IsMatrix(b, 2 * PicSize, 2 * PicSize)
    requires PointwiseLe(a, b)
    ensures PointwiseLe(MaxPool(a), MaxPool(b))
  {
    var sa, sb := MaxPool(a), MaxPool(b);
    forall i, j | 0 <= i < PicSize && 0 <= j < PicSize
      ensures sa[i][j] <= sb[i][j]
    {
      var wa, wb := Window(a, i, j), Window(b, i, j);
      var k :| 0 <= k < |wa| && wa[k] == sa[i][j];
      assert wa[k] <= wb[k];
    }
  }

}

=== FILE: quantizer.dfy ===
/** The quantizer: each trained tensor gets its own fractional-bit count
    `7 - ceil(log2(max|x|))`, and every element is scaled by 2^bits, rounded
    half to even and stored as a signed 8-bit integer. Tensor values are
    exact reals here, so the bit count is the largest k with max|x| * 2^k
    <= 128. */
module Quantizer {

  import opened Results
  import opened FixedPoint
  import opened Matrices
  import opened Network

  // ---------------------------------------------------------------------
  // Scaling by powers of two

  /** x * 2^k for any integer exponent, by repeated doubling or halving. */
  function Scale(x: real, k: int): real
    decreases if k >= 0 then k else -k
  {
    if k == 0 then x
    else if k > 0 then 2.0 * Scale(x, k - 1)
    else Scale(x, k + 1) / 2.0
  }

  /** One more bit doubles the scaled value. */
  lemma ScaleStep(x: real, k: int, j: int)
    requires j == k + 1
    ensures Scale(x, j) == 2.0 * Scale(x, k)
  {
  }

  /** Scaling distributes over sums and negation. */
  lemma {:induction false} ScaleLinear(a: real, b: real, k: int)
    ensures Scale(a + b, k) == Scale(a, k) + Scale(b, k)
    ensures Scale(a - b, k) == Scale(a, k) - Scale(b, k)
    ensures Scale(-a, k) == -Scale(a, k)
    decreases if k >= 0 then k else -k
  {
    if k > 0 {
      ScaleLinear(a, b, k - 1);
    } else if k < 0 {
      ScaleLinear(a, b, k + 1);
    }
  }

  /** Scaling is strictly increasing in the scaled value. */
  lemma {:induction false} ScaleMonotone(a: real, b: real, k: int)
    requires a <= b
    ensures Scale(a, k) <= Scale(b, k)
    ensures a < b ==> Scale(a, k) < Scale(b, k)
    decreases if k >= 0 then k else -k
  {
    if k > 0 {
      ScaleMonotone(a, b, k - 1);
    } else if k < 0 {
      ScaleMonotone(a, b, k + 1);
    }
  }

  /** Scaling keeps the sign. */
  lemma ScaleSign(x: real, k: int)
    ensures x > 0.0 ==> Scale(x, k) > 0.0
    ensures x < 0.0 ==> Scale(x, k) < 0.0
    ensures x == 0.0 ==> Scale(x, k) == 0.0
  {
    ScaleLinear(0.0, 0.0, k);
    if x >= 0.0 {
      ScaleMonotone(0.0, x, k);
    } else {
      ScaleMonotone(x, 0.0, k);
    }
  }

  /** Scaling commutes with the absolute value. */
  lemma ScaleAbs(x: real, k: int)
    ensures Scale(AbsR(x), k) == AbsR(Scale(x, k))
  {
    ScaleSign(x, k);
    ScaleLinear(x, x, k);
  }

  /** Scaling by 2^a and then by 2^b is scaling by 2^(a+b). */
  lemma {:induction false} ScaleCompose(x: real, a: int, b: int)
    ensures Scale(Scale(x, a), b) == Scale(x, a + b)
    decreases if b >= 0 then b else -b
  {
    if b > 0 {
      ScaleCompose(x, a, b - 1);
      ScaleStep(x, a + (b - 1), a + b);
    } else if b < 0 {
      ScaleCompose(x, a, b + 1);
      ScaleStep(x, a + b, a + (b + 1));
    }
  }

  /** ScaleCompose for a sum already known. */
  lemma ScaleComposeTo(x: real, a: int, b: int, s: int)
    requires a + b == s
    ensures Scale(Scale(x, a), b) == Scale(x, s)
  {
    ScaleCompose(x, a, b);
  }

  /** For a nonnegative value more bits never give less, and for a positive
      value strictly more. */
  lemma {:induction false} ScaleExpMonotone(x: real, a: int, b: int)
    requires x >= 0.0 && a <= b
    ensures Scale(x, a) <= Scale(x, b)
    ensures x > 0.0 && a < b ==> Scale(x, a) < Scale(x, b)
    decreases b - a
  {
    if a < b {
      ScaleExpMonotone(x, a, b - 1);
      ScaleStep(x, b - 1, b);
      ScaleSign(x, b - 1);
    }
  }

  lemma ScaleLiterals()
    ensures Scale(1.0, -1) == 0.5 && Scale(1.0, 0) == 1.0
    ensures Scale(1.0, 6) == 64.0 && Scale(1.0, 7) == 128.0 && Scale(1.0, 8) == 256.0
  {
  }

  // ---------------------------------------------------------------------
  // Bit counts

  function AbsR(x: real): real
  {
    if x < 0.0 then -x else x
  }

  /** numpy's `max` over a non-empty tensor. */
  function TensorMax(t: seq<real>): (r: real)
    requires |t| > 0
    ensures forall i :: 0 <= i < |t| ==> t[i] <= r
    ensures exists i :: 0 <= i < |t| && t[i] == r
  {
    if |t| == 1 then t[0]
    else
      var m := TensorMax(t[1..]);
      assert forall i :: 1 <= i < |t| ==> t[i] == t[1..][i - 1];
      if t[0] >= m then t[0] else m
  }

  /** numpy's `min` over a non-empty tensor. */
  function TensorMin(t: seq<real>): (r: real)
    requires |t| > 0
    ensures forall i :: 0 <= i < |t| ==> r <= t[i]
    ensures exists i :: 0 <= i < |t| && t[i] == r
  {
    if |t| == 1 then t[0]
    else
      var m := TensorMin(t[1..]);
      assert forall i :: 1 <= i < |t| ==> t[i] == t[1..][i - 1];
      if t[0] <= m then t[0] else m
  }

  /** max(|min|, |max|), the quantity whose log2 fixes the bit count: it is the
      largest magnitude of any element. */
  function MaxAbs(t: seq<real>): (m: real)
    requires |t| > 0
    ensures forall i :: 0 <= i < |t| ==> AbsR(t[i]) <= m
    ensures exists i :: 0 <= i < |t| && AbsR(t[i]) == m
  {
    var lo, hi := TensorMin(t), TensorMax(t);
    if AbsR(lo) >= AbsR(hi) then AbsR(lo) else AbsR(hi)
  }

  /** ceil(log2 m) on exact reals: the least c with m <= 2^c. */
  function CeilLog2(m: real): (c: int)
    requires m > 0.0
    ensures Scale(1.0, c - 1) < m <= Scale(1.0, c)
    decreases if m > 1.0 then 1 else 0, if m > 1.0 then m.Floor else (1.0 / m).Floor
  {
    if m > 1.0 then
      HalvingShrinks(m);
      var c := CeilLog2(m / 2.0);
      ScaleStep(1.0, c - 1, c);
      ScaleStep(1.0, c, c + 1);
      c + 1
    else if m <= 0.5 then
      DoublingShrinks(m);
      var c := CeilLog2(2.0 * m);
      ScaleStep(1.0, c - 2, c - 1);
      ScaleStep(1.0, c - 1, c);
      c - 1
    else
      ScaleLiterals();
      0
  }

  lemma HalvingShrinks(m: real)
    requires m > 1.0
    ensures m / 2.0 > 1.0 ==> (m / 2.0).Floor < m.Floor
  {
  }

  lemma DoublingShrinks(m: real)
    requires 0.0 < m <= 0.5
    ensures 2.0 * m <= 1.0
    ensures (1.0 / (2.0 * m)).Floor < (1.0 / m).Floor
  {
    var r := 1.0 / m;
    assert r >= 2.0;
    assert 1.0 / (2.0 * m) == r / 2.0;
  }

  /** The two bounds determine the logarithm: only one c has
      2^(c-1) < m <= 2^c. */
  lemma CeilLog2Unique(m: real, c: int)
    requires m > 0.0
    requires Scale(1.0, c - 1) < m <= Scale(1.0, c)
    ensures c == CeilLog2(m)
  {
    var d := CeilLog2(m);
    if c < d {
      ScaleExpMonotone(1.0, c, d - 1);
    } else if c > d {
      ScaleExpMonotone(1.0, d, c - 1);
    }
  }

  /** The fractional-bit count for a tensor whose largest magnitude is m:
      7 - ceil(log2 m). */
  function FracBits(m: real): int
    requires m > 0.0
  {
    7 - CeilLog2(m)
  }

  /** The bit count scales m into (64, 128]. */
  lemma FracBitsScales(m: real)
    requires m > 0.0
    ensures 64.0 < Scale(m, FracBits(m)) <= 128.0
  {
    var c := CeilLog2(m);
    var k := FracBits(m);
    ScaleMonotone(Scale(1.0, c - 1), m, k);
    ScaleMonotone(m, Scale(1.0, c), k);
    ScaleComposeTo(1.0, c - 1, k, 6);
    ScaleComposeTo(1.0, c, k, 7);
    ScaleLiterals();
  }

  /** The bit count is the largest k with m * 2^k <= 128: every smaller k
      also fits and every larger one overflows 128. */
  lemma FracBitsLargest(m: real, k: int)
    requires m > 0.0
    ensures Scale(m, k) <= 128.0 <==> k <= FracBits(m)
  {
    var b := FracBits(m);
    FracBitsScales(m);
    if k <= b {
      ScaleExpMonotone(m, k, b);
    } else {
      ScaleExpMonotone(m, b + 1, k);
      ScaleStep(m, b, b + 1);
    }
  }

  /** (64, 128] is hit by exactly one count: any k that scales m into it is
      the bit count. */
  lemma FracBitsUnique(m: real, k: int)
    requires m > 0.0
    requires 64.0 < Scale(m, k) <= 128.0
    ensures k == FracBits(m)
  {
    FracBitsLargest(m, k);
    FracBitsLargest(m, k + 1);
    ScaleStep(m, k, k + 1);
  }

  /** Every element of t is zero. */
  predicate AllZero(t: seq<real>)
  {
    forall i :: 0 <= i < |t| ==> t[i] == 0.0
  }

  lemma MaxAbsPositive(t: seq<real>)
    requires |t| > 0 && !AllZero(t)
    ensures MaxAbs(t) > 0.0
  {
    var j :| 0 <= j < |t| && t[j] != 0.0;
    assert AbsR(t[j]) > 0.0;
  }

  /** The fractional-bit count of a tensor with a nonzero element. */
  function TensorBits(t: seq<real>): int
    requires |t| > 0 && !AllZero(t)
  {
    MaxAbsPositive(t);
    FracBits(MaxAbs(t))
  }

  /** `bits` is the largest count that keeps every element of t within
      [-128, 128] after scaling: it fits, and one more bit pushes some
      element beyond. */
  predicate BitsFit(t: seq<real>, bits: int)
  {
    (forall i :: 0 <= i < |t| ==> Scale(AbsR(t[i]), bits) <= 128.0) &&
    (exists i :: 0 <= i < |t| && Scale(AbsR(t[i]), bits + 1) > 128.0)
  }

  /** Every element of t scaled by 2^k stays within [-128, 128] exactly
      when its largest magnitude does. */
  lemma FitsIffMaxFits(t: seq<real>, k: int)
    requires |t| > 0
    ensures (forall i :: 0 <= i < |t| ==> Scale(AbsR(t[i]), k) <= 128.0) <==> Scale(MaxAbs(t), k) <= 128.0
  {
    var m := MaxAbs(t);
    var j :| 0 <= j < |t| && AbsR(t[j]) == m;
    forall i | 0 <= i < |t|
      ensures Scale(AbsR(t[i]), k) <= Scale(m, k)
    {
      ScaleMonotone(AbsR(t[i]), m, k);
    }
  }

  /** The tensor's bit count is the largest fitting one. */
  lemma TensorBitsFit(t: seq<real>)
    requires |t| > 0 && !AllZero(t)
    ensures BitsFit(t, TensorBits(t))
  {
    var m, b := MaxAbs(t), TensorBits(t);
    MaxAbsPositive(t);
    FracBitsLargest(m, b);
    FracBitsLargest(m, b + 1);
    FitsIffMaxFits(t, b);
    FitsIffMaxFits(t, b + 1);
  }

  /** The count is the largest one that keeps the whole tensor within
      [-128, 128]: exactly the counts up to it fit. */
  lemma TensorBitsLargest(t: seq<real>, k: int)
    requires |t| > 0 && !AllZero(t)
    ensures (forall i :: 0 <= i < |t| ==> Scale(AbsR(t[i]), k) <= 128.0) <==> k <= TensorBits(t)
  {
    MaxAbsPositive(t);
    FracBitsLargest(MaxAbs(t), k);
    FitsIffMaxFits(t, k);
  }

  // ---------------------------------------------------------------------
  // Rounding and the element quantizers

  /** numpy's `round`: to the nearest integer, ties to the even one. */
  function RoundHalfEven(x: real): (n: int)
    ensures -0.5 <= n as real - x <= 0.5
    ensures AbsR(n as real - x) == 0.5 ==> n % 2 == 0
  {
    var f := x.Floor;
    var d := x - f as real;
    if d < 0.5 then f
    else if d > 0.5 then f + 1
    else if f % 2 == 0 then f
    else f + 1
  }

  /** The two properties of RoundHalfEven determine it: it is the only
      integer within 1/2 of x that is even whenever it is exactly 1/2 away. */
  lemma RoundHalfEvenUnique(x: real, n: int)
    requires -0.5 <= n as real - x <= 0.5
    requires AbsR(n as real - x) == 0.5 ==> n % 2 == 0
    ensures n == RoundHalfEven(x)
  {
    var r := RoundHalfEven(x);
  }

  /** The scaled, rounded value of x: `np.round(x * 2 ** bits)`. */
  function ScaledRound(x: real, bits: int): int
  {
    RoundHalfEven(Scale(x, bits))
  }

  /** One element as the quantizer stores it: `np.round`'s float result
      converted to int8. Within a tensor's range the only value outside
      int8 is 128.0 (see WrapOnlyAt128), which the conversion turns into
      -128; the modulo-256 reduction gives exactly that. */
  function QuantizeAsWritten(x: real, bits: int): int
  {
    CastInt8(ScaledRound(x, bits))
  }

  /** Saturation to the int8 range. */
  function SaturateInt8(n: int): int
  {
    if n > 127 then 127 else if n < -128 then -128 else n
  }

  /** The value an int8 q with `bits` fractional bits stands for: q / 2^bits. */
  function Dequantize(q: int, bits: int): real
  {
    Scale(q as real, -bits)
  }

  /** One element quantized with saturation instead of wrap-around: an int8
      of the same sign as x that, once x is within the tensor's range, reads
      back as x within one unit in the last place (2^-bits). */
  function Quantize(x: real, bits: int): (q: int)
    ensures IsInt8(q)
    ensures x >= 0.0 ==> q >= 0
    ensures x <= 0.0 ==> q <= 0
    ensures Scale(AbsR(x), bits) <= 128.0 ==> AbsR(Dequantize(q, bits) - x) <= Scale(1.0, -bits)
  {
    QuantizeFacts(x, bits);
    SaturateInt8(ScaledRound(x, bits))
  }

  lemma QuantizeFacts(x: real, bits: int)
    ensures var q := SaturateInt8(ScaledRound(x, bits));
            (x >= 0.0 ==> q >= 0) && (x <= 0.0 ==> q <= 0) &&
            (Scale(AbsR(x), bits) <= 128.0 ==> AbsR(Dequantize(q, bits) - x) <= Scale(1.0, -bits))
  {
    var y := Scale(x, bits);
    var n := ScaledRound(x, bits);
    var q := SaturateInt8(n);
    ScaleSign(x, bits);
    if Scale(AbsR(x), bits) <= 128.0 {
      ScaleAbs(x, bits);
      assert -1.0 <= q as real - y <= 1.0;
      ScaleError(x, q, bits, 1.0);
    }
  }

  /** If the integer n is within e of x * 2^bits, then n read back with
      `bits` fractional bits is within e * 2^-bits of x. */
  lemma ScaleError(x: real, n: int, bits: int, e: real)
    requires AbsR(n as real - Scale(x, bits)) <= e
    ensures AbsR(Dequantize(n, bits) - x) <= Scale(e, -bits)
  {
    var y := Scale(x, bits);
    var d := n as real - y;
    ScaleLinear(n as real, y, -bits);
    ScaleComposeTo(x, bits, -bits, 0);
    assert Dequantize(n, bits) - x == Scale(d, -bits);
    ScaleAbs(d, -bits);
    ScaleMonotone(AbsR(d), e, -bits);
  }

  /** Within the range the bits were chosen for, the rounded value of an
      element is in [-128, 128]; the int8 cast changes it only when it is
      exactly 128, which becomes -128, and that needs an element with
      x * 2^bits >= 127.5 (127.5 itself rounds to the even 128). */
  lemma WrapOnlyAt128(x: real, bits: int)
    requires Scale(AbsR(x), bits) <= 128.0
    ensures -128 <= ScaledRound(x, bits) <= 128
    ensures QuantizeAsWritten(x, bits) != ScaledRound(x, bits) <==> ScaledRound(x, bits) == 128
    ensures ScaledRound(x, bits) == 128 ==>
              QuantizeAsWritten(x, bits) == -128 && Scale(x, bits) >= 127.5
  {
    ScaleAbs(x, bits);
    var n := ScaledRound(x, bits);
    if n == 128 {
      assert CastInt8(128) == -128;
    }
  }

  /** Without a wrap, reading the stored int8 value back gives x
      within half a unit in the last place. */
  lemma DequantizeError(x: real, bits: int)
    requires IsInt8(ScaledRound(x, bits))
    ensures AbsR(Dequantize(QuantizeAsWritten(x, bits), bits) - x) <= Scale(0.5, -bits)
  {
    ScaleError(x, ScaledRound(x, bits), bits, 0.5);
  }

  /** The saturating quantizer is the as-written quantizer wherever the int8
      conversion does not wrap, and there it keeps the half-unit error bound. */
  lemma QuantizeMatchesAsWritten(x: real, bits: int)
    requires IsInt8(ScaledRound(x, bits))
    ensures Quantize(x, bits) == QuantizeAsWritten(x, bits)
    ensures AbsR(Dequantize(Quantize(x, bits), bits) - x) <= Scale(0.5, -bits)
  {
    DequantizeError(x, bits);
  }

  /** When a tensor's largest magnitude is a power of two 2^e attained by a
      positive element, the chosen bit count is 7 - e, that element scales
      to exactly 128 and the int8 cast turns it into -128; the saturating
      quantizer gives 127. */
  lemma PowerOfTwoMaximumWraps(e: int)
    ensures Scale(1.0, e) > 0.0
    ensures FracBits(Scale(1.0, e)) == 7 - e
    ensures ScaledRound(Scale(1.0, e), 7 - e) == 128
    ensures QuantizeAsWritten(Scale(1.0, e), 7 - e) == -128
    ensures Quantize(Scale(1.0, e), 7 - e) == 127
  {
    var m := Scale(1.0, e);
    ScaleSign(1.0, e);
    ScaleComposeTo(1.0, e, 7 - e, 7);
    ScaleLiterals();
    FracBitsUnique(m, 7 - e);
    RoundHalfEvenUnique(128.0, 128);
    assert CastInt8(128) == -128;
  }

  /** The bias vector [1.0, -0.5]: 7 fractional bits, and its first element
      comes out of the as-written quantizer as -128, the opposite sign. */
  lemma BiasOneWraps()
    ensures !AllZero([1.0, -0.5])
    ensures TensorBits([1.0, -0.5]) == 7
    ensures QuantizeVectorAsWritten([1.0, -0.5], 7) == [-128, -64]
    ensures QuantizeVector([1.0, -0.5], 7) == [127, -64]
  {
    var t := [1.0, -0.5];
    assert t[0] != 0.0;
    ScaleLiterals();
    PowerOfTwoMaximumWraps(0);
    TensorBitsLargest(t, 7);
    TensorBitsLargest(t, 8);
    assert Scale(AbsR(t[0]), 8) > 128.0;
    assert Scale(AbsR(t[1]), 7) == 64.0;
    ScaleLinear(0.5, 0.5, 7);
    RoundHalfEvenUnique(-64.0, -64);
  }

  // ---------------------------------------------------------------------
  // Tensors and the whole network

  /** A tensor quantized element by element. */
  function QuantizeVector(t: seq<real>, bits: int): seq<int>
  {
    seq(|t|, i requires 0 <= i < |t| => Quantize(t[i], bits))
  }

  function QuantizeVectorAsWritten(t: seq<real>, bits: int): seq<int>
  {
    seq(|t|, i requires 0 <= i < |t| => QuantizeAsWritten(t[i], bits))
  }

  function QuantizeMatrix(m: seq<seq<real>>, bits: int): seq<seq<int>>
  {
    seq(|m|, i requires 0 <= i < |m| => QuantizeVector(m[i], bits))
  }

  function QuantizeMatrixAsWritten(m: seq<seq<real>>, bits: int): seq<seq<int>>
  {
    seq(|m|, i requires 0 <= i < |m| => QuantizeVectorAsWritten(m[i], bits))
  }

  /** No element of t rounds to 128 with `bits` fractional bits, so the int8
      conversion wraps none of them. */
  predicate NoneRoundsTo128(t: seq<real>, bits: int)
  {
    forall x :: x in t ==> ScaledRound(x, bits) != 128
  }

  /** q is t quantized with `bits`: same length, int8 entries, each reading
      back as its element within one unit in the last place. */
  predicate FaithfulVector(t: seq<real>, q: seq<int>, bits: int)
  {
    |q| == |t| &&
    forall i :: 0 <= i < |t| ==>
      IsInt8(q[i]) && AbsR(Dequantize(q[i], bits) - t[i]) <= Scale(1.0, -bits)
  }

  predicate FaithfulMatrix(m: seq<seq<real>>, q: seq<seq<int>>, bits: int)
  {
    |q| == |m| && forall i :: 0 <= i < |m| ==> FaithfulVector(m[i], q[i], bits)
  }

  /** The tensors of the trained floating-point network. */
  datatype FloatModel = FloatModel(
    l1Weights: seq<seq<real>>,
    l1Bias: seq<real>,
    l2Weights: seq<seq<real>>,
    l2Bias: seq<real>)
  {
    predicate WellShaped()
    {
      IsMatrix(l1Weights, |l1Weights|, |l1Bias|) && IsMatrix(l2Weights, |l1Bias|, |l2Bias|)
    }
  }

  datatype TensorName = Layer1Weights | Layer1Bias | Layer2Weights | Layer2Bias

  /** Why quantization aborts: a tensor has no elements (numpy's `min` and
      `max` refuse an empty array), or every element is zero (log2(0) is
      -inf and converting it to an integer fails). */
  datatype QuantError = EmptyTensor(tensor: TensorName) | DegenerateTensor(tensor: TensorName)

  /** A vector whose elements fit `bits` is quantized faithfully. */
  lemma QuantizeVectorFaithful(t: seq<real>, bits: int)
    requires forall i :: 0 <= i < |t| ==> Scale(AbsR(t[i]), bits) <= 128.0
    ensures FaithfulVector(t, QuantizeVector(t, bits), bits)
  {
  }

  /** A matrix whose flattened elements fit `bits` is quantized faithfully,
      row by row. */
  lemma QuantizeMatrixFaithful(m: seq<seq<real>>, bits: int)
    requires forall k :: 0 <= k < |Flatten(m)| ==> Scale(AbsR(Flatten(m)[k]), bits) <= 128.0
    ensures FaithfulMatrix(m, QuantizeMatrix(m, bits), bits)
  {
    var f := Flatten(m);
    forall i | 0 <= i < |m|
      ensures FaithfulVector(m[i], QuantizeMatrix(m, bits)[i], bits)
    {
      forall j | 0 <= j < |m[i]|
        ensures Scale(AbsR(m[i][j]), bits) <= 128.0
      {
        assert m[i][j] in m[i];
        assert m[i][j] in f;
      }
      QuantizeVectorFaithful(m[i], bits);
    }
  }

  /** For a vector that fits `bits`, the saturating and the as-written
      quantizer store the same int8 values exactly when no element rounds
      to 128. */
  lemma QuantizeVectorAgrees(t: seq<real>, bits: int)
    requires forall i :: 0 <= i < |t| ==> Scale(AbsR(t[i]), bits) <= 128.0
    ensures QuantizeVector(t, bits) == QuantizeVectorAsWritten(t, bits) <==> NoneRoundsTo128(t, bits)
  {
    var c, a := QuantizeVector(t, bits), QuantizeVectorAsWritten(t, bits);
    if NoneRoundsTo128(t, bits) {
      forall i | 0 <= i < |t|
        ensures c[i] == a[i]
      {
        assert t[i] in t;
        WrapOnlyAt128(t[i], bits);
        QuantizeMatchesAsWritten(t[i], bits);
      }
    } else {
      var x :| x in t && ScaledRound(x, bits) == 128;
      var i :| 0 <= i < |t| && t[i] == x;
      WrapOnlyAt128(x, bits);
      assert c[i] == 127 && a[i] == -128;
    }
  }

  /** The same for a matrix whose flattened elements fit `bits`, row by
      row. */
  lemma QuantizeMatrixAgrees(m: seq<seq<real>>, bits: int)
    requires forall k :: 0 <= k < |Flatten(m)| ==> Scale(AbsR(Flatten(m)[k]), bits) <= 128.0
    ensures QuantizeMatrix(m, bits) == QuantizeMatrixAsWritten(m, bits) <==> NoneRoundsTo128(Flatten(m), bits)
  {
    var f := Flatten(m);
    var c, a := QuantizeMatrix(m, bits), QuantizeMatrixAsWritten(m, bits);
    forall i | 0 <= i < |m|
      ensures c[i] == a[i] <==> NoneRoundsTo128(m[i], bits)
    {
      forall j | 0 <= j < |m[i]|
        ensures Scale(AbsR(m[i][j]), bits) <= 128.0
      {
        assert m[i][j] in m[i];
        assert m[i][j] in f;
      }
      QuantizeVectorAgrees(m[i], bits);
    }
    if NoneRoundsTo128(f, bits) {
      forall i | 0 <= i < |m|
        ensures NoneRoundsTo128(m[i], bits)
      {
      }
      assert c == a;
    } else {
      var x :| x in f && ScaledRound(x, bits) == 128;
      var i :| 0 <= i < |m| && x in m[i];
      assert c[i] != a[i];
    }
  }

  /** The error the quantizer reports, if any, for tensors checked in the
      order layer-1 weights, layer-1 bias, layer-2 weights, layer-2 bias:
      the first empty one (the min/max reductions run before any
      logarithm), else the first all-zero one. */
  function CheckTensors(w1: seq<real>, b1: seq<real>, w2: seq<real>, b2: seq<real>): (e: Option<QuantError>)
    ensures e.None? <==>
              |w1| > 0 && |b1| > 0 && |w2| > 0 && |b2| > 0 &&
              !AllZero(w1) && !AllZero(b1) && !AllZero(w2) && !AllZero(b2)
    ensures e.Some? && e.value.EmptyTensor? <==> |w1| == 0 || |b1| == 0 || |w2| == 0 || |b2| == 0
  {
    if |w1| == 0 then Some(EmptyTensor(Layer1Weights))
    else if |b1| == 0 then Some(EmptyTensor(Layer1Bias))
    else if |w2| == 0 then Some(EmptyTensor(Layer2Weights))
    else if |b2| == 0 then Some(EmptyTensor(Layer2Bias))
    else if AllZero(w1) then Some(DegenerateTensor(Layer1Weights))
    else if AllZero(b1) then Some(DegenerateTensor(Layer1Bias))
    else if AllZero(w2) then Some(DegenerateTensor(Layer2Weights))
    else if AllZero(b2) then Some(DegenerateTensor(Layer2Bias))
    else None
  }

  /** The whole quantizer. On success every tensor gets its own largest
      fitting bit count and every element is quantized with it. */
  function QuantizeModel(fm: FloatModel): (r: Result<FixedModel, QuantError>)
    ensures r.Ok? <==>
              |Flatten(fm.l1Weights)| > 0 && |fm.l1Bias| > 0 && |Flatten(fm.l2Weights)| > 0 && |fm.l2Bias| > 0 &&
              !AllZero(Flatten(fm.l1Weights)) && !AllZero(fm.l1Bias) &&
              !AllZero(Flatten(fm.l2Weights)) && !AllZero(fm.l2Bias)
    ensures r.Err? && r.error.EmptyTensor? <==>
              |Flatten(fm.l1Weights)| == 0 || |fm.l1Bias| == 0 || |Flatten(fm.l2Weights)| == 0 || |fm.l2Bias| == 0
    ensures r.Ok? ==>
              var q := r.value;
              BitsFit(Flatten(fm.l1Weights), q.l1wBits) && BitsFit(fm.l1Bias, q.l1bBits) &&
              BitsFit(Flatten(fm.l2Weights), q.l2wBits) && BitsFit(fm.l2Bias, q.l2bBits) &&
              FaithfulMatrix(fm.l1Weights, q.l1Weights, q.l1wBits) &&
              FaithfulVector(fm.l1Bias, q.l1Bias, q.l1bBits) &&
              FaithfulMatrix(fm.l2Weights, q.l2Weights, q.l2wBits) &&
              FaithfulVector(fm.l2Bias, q.l2Bias, q.l2bBits)
  {
    var w1, b1, w2, b2 := Flatten(fm.l1Weights), fm.l1Bias, Flatten(fm.l2Weights), fm.l2Bias;
    match CheckTensors(w1, b1, w2, b2)
    case Some(e) => Err(e)
    case None =>
      var k1, k2, k3, k4 := TensorBits(w1), TensorBits(b1), TensorBits(w2), TensorBits(b2);
      TensorBitsFit(w1);
      TensorBitsFit(b1);
      TensorBitsFit(w2);
      TensorBitsFit(b2);
      QuantizeMatrixFaithful(fm.l1Weights, k1);
      QuantizeVectorFaithful(b1, k2);
      QuantizeMatrixFaithful(fm.l2Weights, k3);
      QuantizeVectorFaithful(b2, k4);
      Ok(FixedModel(QuantizeMatrix(fm.l1Weights, k1), QuantizeVector(b1, k2),
                    QuantizeMatrix(fm.l2Weights, k3), QuantizeVector(b2, k4),
                    k1, k2, k3, k4))
  }

  /** The wrapping conversion always yields int8 entries and keeps the
      shape. */
  lemma AsWrittenVectorIsInt8(t: seq<real>, bits: int)
    ensures |QuantizeVectorAsWritten(t, bits)| == |t|
    ensures forall i :: 0 <= i < |t| ==> IsInt8(QuantizeVectorAsWritten(t, bits)[i])
  {
  }

  lemma AsWrittenMatrixIsInt8(m: seq<seq<real>>, rows: nat, cols: nat, bits: int)
    requires IsMatrix(m, rows, cols)
    ensures IsMatrix(QuantizeMatrixAsWritten(m, bits), rows, cols)
    ensures forall i, h :: 0 <= i < rows && 0 <= h < cols ==> IsInt8(QuantizeMatrixAsWritten(m, bits)[i][h])
  {
    var a := QuantizeMatrixAsWritten(m, bits);
    forall i | 0 <= i < rows
      ensures |a[i]| == cols
      ensures forall h :: 0 <= h < cols ==> IsInt8(a[i][h])
    {
      AsWrittenVectorIsInt8(m[i], bits);
    }
  }

  /** A quantized well-shaped network is a well-shaped int8 network for the
      inference engine, with the dimensions of the trained one. */
  lemma QuantizedModelIsInt8(fm: FloatModel)
    requires fm.WellShaped()
    ensures QuantizeModel(fm).Ok? ==>
              var q := QuantizeModel(fm).value;
              q.WellShaped() && q.IsInt8Model() &&
              q.ImgSize() == |fm.l1Weights| && q.L1Size() == |fm.l1Bias| && q.L2Size() == |fm.l2Bias|
  {
    if QuantizeModel(fm).Ok? {
      var q := QuantizeModel(fm).value;
      assert FaithfulMatrix(fm.l1Weights, q.l1Weights, q.l1wBits);
      assert FaithfulMatrix(fm.l2Weights, q.l2Weights, q.l2wBits);
      forall i | 0 <= i < |q.l1Weights|
        ensures FaithfulVector(fm.l1Weights[i], q.l1Weights[i], q.l1wBits)
      {
      }
      forall h | 0 <= h < |q.l2Weights|
        ensures FaithfulVector(fm.l2Weights[h], q.l2Weights[h], q.l2wBits)
      {
      }
    }
  }


  /** The network the program saves, from its wrapping quantizer, is a
      well-shaped int8 network of the trained sizes whenever quantization
      succeeds: the wrap changes values, never the range or the shape. */
  lemma QuantizedModelAsWrittenIsInt8(fm: FloatModel)
    requires fm.WellShaped()
    ensures QuantizeModelAsWritten(fm).Ok? ==>
              var a := QuantizeModelAsWritten(fm).value;
              a.WellShaped() && a.IsInt8Model() &&
              a.ImgSize() == |fm.l1Weights| && a.L1Size() == |fm.l1Bias| && a.L2Size() == |fm.l2Bias|
  {
    if QuantizeModelAsWritten(fm).Ok? {
      var a := QuantizeModelAsWritten(fm).value;
      AsWrittenMatrixIsInt8(fm.l1Weights, |fm.l1Weights|, |fm.l1Bias|, a.l1wBits);
      AsWrittenMatrixIsInt8(fm.l2Weights, |fm.l1Bias|, |fm.l2Bias|, a.l2wBits);
      AsWrittenVectorIsInt8(fm.l1Bias, a.l1bBits);
      AsWrittenVectorIsInt8(fm.l2Bias, a.l2bBits);
    }
  }

  /** The whole quantizer as the program runs it: the same checks and bit
      counts as QuantizeModel, but every element converted to int8 with
      wrap-around. */
  function QuantizeModelAsWritten(fm: FloatModel): Result<FixedModel, QuantError>
  {
    var w1, b1, w2, b2 := Flatten(fm.l1Weights), fm.l1Bias, Flatten(fm.l2Weights), fm.l2Bias;
    match CheckTensors(w1, b1, w2, b2)
    case Some(e) => Err(e)
    case None =>
      var k1, k2, k3, k4 := TensorBits(w1), TensorBits(b1), TensorBits(w2), TensorBits(b2);
      Ok(FixedModel(QuantizeMatrixAsWritten(fm.l1Weights, k1), QuantizeVectorAsWritten(b1, k2),
                    QuantizeMatrixAsWritten(fm.l2Weights, k3), QuantizeVectorAsWritten(b2, k4),
                    k1, k2, k3, k4))
  }

  /** The program's quantizer and the saturating one fail on the same
      networks with the same error, choose the same bit counts, and store
      the same network exactly when no element of any tensor rounds to
      128. */
  lemma QuantizeModelAgrees(fm: FloatModel)
    ensures QuantizeModelAsWritten(fm).Ok? <==> QuantizeModel(fm).Ok?
    ensures QuantizeModel(fm).Err? ==> QuantizeModelAsWritten(fm) == QuantizeModel(fm)
    ensures QuantizeModel(fm).Ok? ==>
              var c, a := QuantizeModel(fm).value, QuantizeModelAsWritten(fm).value;
              a.l1wBits == c.l1wBits && a.l1bBits == c.l1bBits &&
              a.l2wBits == c.l2wBits && a.l2bBits == c.l2bBits &&
              (a == c <==>
                 NoneRoundsTo128(Flatten(fm.l1Weights), c.l1wBits) && NoneRoundsTo128(fm.l1Bias, c.l1bBits) &&
                 NoneRoundsTo128(Flatten(fm.l2Weights), c.l2wBits) && NoneRoundsTo128(fm.l2Bias, c.l2bBits))
  {
    var w1, b1, w2, b2 := Flatten(fm.l1Weights), fm.l1Bias, Flatten(fm.l2Weights), fm.l2Bias;
    if CheckTensors(w1, b1, w2, b2).None? {
      var k1, k2, k3, k4 := TensorBits(w1), TensorBits(b1), TensorBits(w2), TensorBits(b2);
      TensorBitsFit(w1);
      TensorBitsFit(b1);
      TensorBitsFit(w2);
      TensorBitsFit(b2);
      QuantizeMatrixAgrees(fm.l1Weights, k1);
      QuantizeVectorAgrees(b1, k2);
      QuantizeMatrixAgrees(fm.l2Weights, k3);
      QuantizeVectorAgrees(b2, k4);
    }
  }

  /** A tensor whose elements are all 0.75 gets 7 bits, and 0.75 scales to
      96, so nothing in it wraps. */
  lemma ThreeQuarters(t: seq<real>)
    requires |t| > 0 && forall i :: 0 <= i < |t| ==> t[i] == 0.75
    ensures !AllZero(t)
    ensures TensorBits(t) == 7
    ensures ScaledRound(0.75, 7) == 96
    ensures NoneRoundsTo128(t, 7)
  {
    assert t[0] != 0.0;
    ScaleLiterals();
    ScaleLinear(0.5, 0.25, 7);
    ScaleLinear(0.25, 0.25, 7);
    ScaleComposeTo(1.0, -1, 7, 6);
    assert Scale(0.5, 7) == 64.0 by {
      ScaleStep(0.5, -1, 0);
      assert Scale(1.0, -1) == 0.5;
      ScaleComposeTo(Scale(1.0, -1), 0, 7, 7);
    }
    assert Scale(0.25, 7) == 32.0;
    assert Scale(0.75, 7) == 96.0;
    ScaleStep(0.75, 7, 8);
    FitsIffMaxFits(t, 7);
    TensorBitsLargest(t, 7);
    TensorBitsLargest(t, 8);
    assert Scale(AbsR(t[0]), 8) > 128.0;
    RoundHalfEvenUnique(96.0, 96);
  }

  /** A whole network with the bias [1.0, -0.5] in layer 1 and 0.75
      everywhere else: the program stores that bias as [-128, -64], the
      saturating quantizer as [127, -64], and nothing else differs. */
  lemma NetworkWithBiasOneWraps()
    ensures var fm := FloatModel([[0.75, 0.75]], [1.0, -0.5], [[0.75], [0.75]], [0.75]);
            fm.WellShaped() &&
            QuantizeModel(fm).Ok? && QuantizeModelAsWritten(fm).Ok? &&
            QuantizeModelAsWritten(fm).value.l1Bias == [-128, -64] &&
            QuantizeModel(fm).value.l1Bias == [127, -64] &&
            QuantizeModelAsWritten(fm).value.l1Weights == QuantizeModel(fm).value.l1Weights &&
            QuantizeModelAsWritten(fm).value.l2Weights == QuantizeModel(fm).value.l2Weights &&
            QuantizeModelAsWritten(fm).value.l2Bias == QuantizeModel(fm).value.l2Bias
  {
    var fm := FloatModel([[0.75, 0.75]], [1.0, -0.5], [[0.75], [0.75]], [0.75]);
    var w1, b1, w2, b2 := Flatten(fm.l1Weights), fm.l1Bias, Flatten(fm.l2Weights), fm.l2Bias;
    assert fm.WellShaped();
    assert w1 == [0.75, 0.75];
    assert w2 == [0.75, 0.75];
    ThreeQuarters(w1);
    ThreeQuarters(w2);
    ThreeQuarters(b2);
    BiasOneWraps();
    assert CheckTensors(w1, b1, w2, b2).None?;
    assert QuantizeModel(fm) ==
      Ok(FixedModel(QuantizeMatrix(fm.l1Weights, 7), QuantizeVector(b1, 7),
                    QuantizeMatrix(fm.l2Weights, 7), QuantizeVector(b2, 7), 7, 7, 7, 7));
    assert QuantizeModelAsWritten(fm) ==
      Ok(FixedModel(QuantizeMatrixAsWritten(fm.l1Weights, 7), QuantizeVectorAsWritten(b1, 7),
                    QuantizeMatrixAsWritten(fm.l2Weights, 7), QuantizeVectorAsWritten(b2, 7), 7, 7, 7, 7));
    TensorBitsFit(w1);
    TensorBitsFit(w2);
    TensorBitsFit(b2);
    QuantizeMatrixAgrees(fm.l1Weights, 7);
    QuantizeMatrixAgrees(fm.l2Weights, 7);
    QuantizeVectorAgrees(b2, 7);
  }

}

=== FILE: results.dfy ===
/** A success-or-error value for the operations of the quantizer and the
    inference engine that the program aborts with an exception,
    and an optional value for checks that either find a problem or not. */
module Results {

  datatype Result<+T, +E> = Ok(value: T) | Err(error: E)

  datatype Option<+T> = None | Some(value: T)

}
